=== FILE: README.md ===
# libhildon3 core in Dafny

This project models three parts of libhildon3, the Maemo Leste widget library:

- **HildonPannableArea.** This is the positioning and animation core of the scrolled window.
  - Each scroll direction is an adjustment (`PannableArea.Axis`).
  - `set_value_internal` resolves each requested position against the adjustment's bounds. The coordinate -1 means "keep this axis".
  - A resolved request is either applied at once or turned into an animation. The frame clock drives the animation tick by tick with a cubic ease-out.
  - `scroll_to` and `jump_to` centre a point in the view.
  - `get_topmost` finds the window under a point (`WindowHitTest`).
  - The scrollbar fade delay is stored in steps of `SCROLL_FADE_TIMEOUT`. The movement mode decides the scrollbar policies (`PannableProperties`).
- **HildonBreadCrumbTrail.** This is a stack of crumb buttons with a back button beside it.
  - Push, pop, clear and remove change the stack (`BreadCrumbTrail`).
  - A clicked crumb unwinds the stack down to itself.
  - The back button is sensitive exactly when there is a crumb to go back to.
  - The size request and the greedy size allocation share the width between the back button and the newest crumbs (`BreadCrumbLayout`).
- **hildon_gtk_widget_set_theme_size.** This turns size flags into a size request and a widget name the theme can match (`ThemeSize`).

Values are modelled as follows:

- `gdouble` is modelled as `real` and `gint64` as `int`.
- Unsigned 32-bit wrap-around is written out where the source multiplies a `guint`. The guint width and glib's MIN and MAX are in `GLib`.
- C's truncating division is written out as `ThemeSize.CDiv`.
- The frame clock is a parameter: its frame time and the handler id it hands out.
- The Pango measurements and the crumbs' natural and requested widths are inputs carried with each crumb.
- Signal emission is the returned id. Widget show/hide/allocate is a `Placement` per crumb.

## Model

| member | source | states |
|---|---|---|
| PannableArea.ResolveTarget | hildon/hildon-pannable-area.c:1309-1331 | -1 keeps the current value. Any other request lands in [lower, max(lower, upper - page)]: unchanged when already in range, `lower` when below it, the last full page when above it. |
| PannableArea.NewArea | hildon/hildon-pannable-area.c:649-655 | A new area has no tick handler and a duration of 200 ms, and is not yet realized. Its bookkeeping is valid, and it is settled when both adjustments are. |
| PannableArea.AnimationSpan | hildon/hildon-pannable-area.c:1344 | The animation length `1000 * duration` is a guint product. It is below 2^32, and it is exact whenever the product fits. |
| PannableArea.BeginUpdating | hildon/hildon-pannable-area.c:1228-1239 | Afterwards a handler is connected. An already connected handler is kept unchanged. Nothing but the handler bookkeeping changes, and validity is preserved. |
| PannableArea.EndUpdating | hildon/hildon-pannable-area.c:1241-1252 | Afterwards no handler is connected, and the clock holds no update request of the area. With no handler nothing changes. Nothing else is touched. |
| PannableArea.UpdatingIdempotent | hildon/hildon-pannable-area.c:1228-1252 | Beginning twice is beginning once, and ending twice is ending once. Begin followed by end leaves no update request on the clock. |
| PannableArea.SetValueInternal | hildon/hildon-pannable-area.c:1299-1353 | Without animation: the handler stops and both values are set to their resolved targets. With animation: the values stay put and the resolved targets are recorded. A running animation towards the same targets is left exactly as it was. Otherwise the animation restarts from the current values at the clock's time. The adjustments' bounds, the duration and the realized flag never change. Validity and "everything in range" are preserved. |
| PannableArea.EaseOutCubicShape | hildon/hildon-pannable-area.c:1257-1263 | The ease-out curve maps 0 to 0 and 1 to 1, and it strictly increases. |
| PannableArea.EaseOutCubicRange | hildon/hildon-pannable-area.c:1257-1263 | On [0, 1] the curve stays in [0, 1], strictly below 1 before the end. |
| PannableArea.LerpBetween | hildon/hildon-pannable-area.c:1286-1287 | A tick's interpolated value lies between the animation's source and target. |
| PannableArea.Progress | hildon/hildon-pannable-area.c:1283-1284 | The normalised elapsed time of a tick before the end is in [0, 1). |
| PannableArea.Eased | hildon/hildon-pannable-area.c:1283-1285 | The eased fraction of a tick before the end is in [0, 1). |
| PannableArea.Tick | hildon/hildon-pannable-area.c:1265-1295 | Before the end time, both values lie between source and target and the handler stays. At or after the end time, both values are exactly the targets and the handler is disconnected. Apart from the handler bookkeeping, only the two values change. |
| PannableArea.TickProgress | hildon/hildon-pannable-area.c:1283-1287 | The animation follows the ease-out towards its targets. The first tick, at the start time, shows the sources. Each later tick before the end lies between an earlier tick's values and the targets, so the view never moves back. While an axis's source and target differ, two ticks at different times show different values on it, so the view keeps moving. |
| PannableArea.ProgressMonotone | hildon/hildon-pannable-area.c:1284 | The elapsed fraction is 0 at the start time and strictly increases as frame time advances. |
| PannableArea.Play | hildon/hildon-pannable-area.c:1265-1295 | Delivering any sequence of ticks keeps the bounds, the targets, the times, the duration and the realized flag. It keeps the bookkeeping valid and every value in range. |
| PannableArea.PlayReachesTargets | hildon/hildon-pannable-area.c:1288-1294 | Once one delivered frame is at or after the end time, the animation has stopped exactly on its targets. |
| PannableArea.GClamp | hildon/hildon-pannable-area.c:1420-1425 | glib's CLAMP tests the high bound first: x above `high` gives `high`, even when high < low. Otherwise x below `low` gives `low`. It returns x inside a proper range and stays within it. With high < low it returns one of the two bounds. |
| PannableArea.ResolveCentred | hildon/hildon-pannable-area.c:1420-1427 | The centred and clamped coordinate, resolved again by set_value_internal, is the range point nearest to x - page/2. |
| PannableArea.ScrollTo | hildon/hildon-pannable-area.c:1397-1439 | On an area not yet realized, with no scrollable axis, or with both coordinates -1, nothing changes. Otherwise, when animating, the targets are the centred positions and the values do not move yet. Validity and ranges are preserved. |
| PannableArea.JumpTo | hildon/hildon-pannable-area.c:1460-1502 | Under the same guard as ScrollTo, both axes are set at once to the centred positions and any animation stops. Validity and ranges are preserved. |
| PannableArea.ScrollToWithoutClockJumps | hildon/hildon-pannable-area.c:1334-1352 | Without a frame clock, or with duration 0, scroll_to does exactly what jump_to does. |
| PannableArea.ScrollKeepsGuard | hildon/hildon-pannable-area.c:1404-1417 | After a scroll_to and any frames that follow, a later scroll_to or jump_to acts exactly when it would have acted on the original area. |
| PannableArea.ScrollToConvergesToJumpTo | hildon/hildon-pannable-area.c:1397-1502 | A scroll_to whose animation has seen a frame past its end leaves both axes where jump_to puts them, with the handler gone. |
| PannableArea.ScrollToIntended | hildon/hildon-pannable-area.c:1357-1359 | As documented: a -1 coordinate makes the animation keep that axis at its current value. |
| PannableArea.JumpToIntended | hildon/hildon-pannable-area.c:1443-1445 | As documented: a -1 coordinate leaves that adjustment unchanged. The other axis gets the centred position. |
| PannableArea.ScrollToIntendedConverges | hildon/hildon-pannable-area.c:1443-1445 | The corrected scroll_to, once complete, ends where the corrected jump_to lands. |
| PannableArea.JumpToMovesIgnoredAxis | hildon/hildon-pannable-area.c:1483-1490 | As written, jump_to(-1, 500) on a horizontal axis at 300 moves it to 0. The corrected version keeps 300. |
| PannableArea.CentredSentinel | hildon/hildon-pannable-area.c:1309-1331 | A centred coordinate of exactly -1.0 is read as the sentinel: jump_to(1, 500) with lower -10, upper 100 and a page of 4 leaves the horizontal axis at 50. |
| PannableArea.CentringExample | hildon/hildon-pannable-area.c:1467-1490 | Centring 800 on a 1000-long axis with a 400 page lands at 600. An area not yet realized ignores the same call. |
| WindowHitTest.Topmost | hildon/hildon-pannable-area.c:995-1059 | A point outside the window finds nothing. A childless window under the point is itself the hit, at the point. |
| WindowHitTest.SelectLastWins | hildon/hildon-pannable-area.c:1027-1056 | In the children loop, the last child offering a candidate is the one selected. |
| WindowHitTest.TopmostLastWins | hildon/hildon-pannable-area.c:1027-1056 | Inside a window with children, there is no hit exactly when no child offers one. Otherwise the hit is the candidate of the last child, in list order, that offers one. |
| WindowHitTest.TopmostSound | hildon/hildon-pannable-area.c:995-1059 | Every hit is sound. Its path leads through visible windows only. The point is translated by every window position on the way and lies inside the window hit. A childless window other than the root is hit only when it listens to the event mask. |
| WindowHitTest.CandidateSound | hildon/hildon-pannable-area.c:1031-1055 | The candidate a single child offers is a sound hit for its parent. |
| PannableProperties.StoreFadeDelay | hildon/hildon-pannable-area.c:893-896 | The stored fade delay is the number of whole 100 ms steps in the milliseconds given. |
| PannableProperties.ReadFadeDelay | hildon/hildon-pannable-area.c:752-754 | Reading back multiplies by 100 as a guint. It is exact whenever the product fits. |
| PannableProperties.FadeDelayRoundTrip | hildon/hildon-pannable-area.c:893-896 | Writing then reading the fade delay rounds it down to a multiple of 100 ms, within 100 ms of the value written. Writing the value read back changes nothing. |
| PannableProperties.PoliciesFor | hildon/hildon-pannable-area.c:832-854 | The horizontal bar is hidden exactly for vertical-only movement, and the vertical bar exactly for horizontal-only movement. Both policies are Automatic or Never, and never both Never. |
| BreadCrumbTrail.New | src/hildon-bread-crumb-trail.c:504-519 | A new trail has no crumbs, and its back button is insensitive. |
| BreadCrumbTrail.UpdateSensitivity | src/hildon-bread-crumb-trail.c:458-474 | The back button becomes sensitive exactly when the trail holds two crumbs or more. The crumbs are untouched. |
| BreadCrumbTrail.FindKey | src/hildon-bread-crumb-trail.c:433-436 | This is the position of the first crumb with the widget, and it equals the length exactly when the widget is not in the trail. |
| BreadCrumbTrail.RemoveFirstSplices | src/hildon-bread-crumb-trail.c:423-456 | Unlinking splices the list around the first crumb with the widget. A missing widget leaves the list as it is. |
| BreadCrumbTrail.Remove | src/hildon-bread-crumb-trail.c:423-456 | A widget not in the trail changes nothing. Otherwise the list is spliced around the first crumb with the widget: the crumbs before and after it keep their order. The trail is one shorter and its sensitivity is recomputed. Consistency is preserved. |
| BreadCrumbTrail.RemoveKeepsDistinct | src/hildon-bread-crumb-trail.c:423-456 | In a trail without duplicates, removing a widget removes it entirely and keeps the rest distinct. |
| BreadCrumbTrail.Push | src/hildon-bread-crumb-trail.c:584-612 | The crumb becomes the head above the old list, unchanged except for its id. A NULL id keeps the crumb's own id, and any other id replaces it. The sensitivity is recomputed. A fresh widget keeps the trail free of duplicates. |
| BreadCrumbTrail.PushText | src/hildon-bread-crumb-trail.c:624-645 | A NULL text changes nothing. Otherwise a new crumb with that text and id becomes the head. |
| BreadCrumbTrail.Pop | src/hildon-bread-crumb-trail.c:654-674 | An empty trail is unchanged. Otherwise the head is removed and the sensitivity is recomputed. |
| BreadCrumbTrail.PopAfterPush | src/hildon-bread-crumb-trail.c:654-674 | Popping right after a push gives back the trail pushed onto. |
| BreadCrumbTrail.RemoveAfterPush | src/hildon-bread-crumb-trail.c:423-456 | Removing the widget just pushed gives back the trail pushed onto. |
| BreadCrumbTrail.RemoveHeadIsPop | src/hildon-bread-crumb-trail.c:667-673 | Removing the head crumb's widget is popping. |
| BreadCrumbTrail.PopTimes | src/hildon-bread-crumb-trail.c:683-696 | n pops drop exactly the n newest crumbs. Any pop leaves the trail consistent. |
| BreadCrumbTrail.Clear | src/hildon-bread-crumb-trail.c:683-696 | Clearing empties the trail and leaves the back button insensitive. An empty trail is unchanged. The result is as many pops as there were crumbs. |
| BreadCrumbTrail.CrumbClicked | src/hildon-bread-crumb-trail.c:363-385 | Clicking a crumb gives the trail after as many pops as there are crumbs above the clicked one, so the clicked crumb becomes the head and older crumbs are untouched. The signal carries the clicked crumb's id. |
| BreadCrumbTrail.ClickHeadKeepsTrail | src/hildon-bread-crumb-trail.c:363-385 | Clicking the head crumb removes nothing. |
| BreadCrumbTrail.ScrollBack | src/hildon-bread-crumb-trail.c:521-533 | The back button pops the head and emits the id of the new head. The trail stays consistent. |
| BreadCrumbTrail.ScrollBackIsClickingPrevious | src/hildon-bread-crumb-trail.c:521-533 | In a trail without duplicates, going back is the same as clicking the crumb just behind the head. |
| BreadCrumbTrail.Forall | src/hildon-bread-crumb-trail.c:394-421 | The callback visits every crumb head first. The back button is visited last, and only with internals. |
| BreadCrumbLayout.PangoPixels | src/hildon-bread-crumb-trail.c:189 | PANGO_PIXELS rounds Pango units to the nearest pixel. |
| BreadCrumbLayout.SizeRequest | src/hildon-bread-crumb-trail.c:154-204 | The request is the back button's plus twice the border. Room for "minimum-width" letters is added only when there is a crumb. |
| BreadCrumbLayout.SizeRequestIgnoresCrumbs | src/hildon-bread-crumb-trail.c:176-196 | The request depends on the crumbs only through whether there is any. |
| BreadCrumbLayout.Desired | src/hildon-bread-crumb-trail.c:267 | A crumb's desired width is its natural width capped at "maximum-width". |
| BreadCrumbLayout.Fit | src/hildon-bread-crumb-trail.c:253-305 | The first loop accepts crumbs while the back button and the accepted crumbs fit. The first crumb rejected would overflow. |
| BreadCrumbLayout.Row | src/hildon-bread-crumb-trail.c:314-343 | The second loop lays the crumbs out contiguously from the oldest accepted to the head. The head's right edge is the start plus the sum of the widths. |
| BreadCrumbLayout.Arrange | src/hildon-bread-crumb-trail.c:314-343 | The accepted crumbs' widths add up to their desired widths plus the surplus. So the head, which takes the surplus, ends exactly that far right of where the row starts. |
| BreadCrumbLayout.PlanFor | src/hildon-bread-crumb-trail.c:246-311 | The number accepted is at most the number of crumbs. A squeezed crumb exists only when some crumb was rejected. |
| BreadCrumbLayout.PlanFacts | src/hildon-bread-crumb-trail.c:246-311 | The crumbs accepted are the greedy fit. The room left is the allocation less the back button and their widths. A crumb is squeezed in exactly when the room exceeds its request. The surplus is 0 with a squeezed crumb, and otherwise the room left. |
| BreadCrumbLayout.SizeAllocate | src/hildon-bread-crumb-trail.c:208-355 | The back button gets its request at the allocation's corner. There is one placement per crumb. Every crumb shown has the allocation's top and the back button's height. |
| BreadCrumbLayout.LayoutShape | src/hildon-bread-crumb-trail.c:246-354 | The shown crumbs run from the head and the hidden ones run to the oldest. A crumb is left alone only when all of them are. |
| BreadCrumbLayout.FullIsAccepted | src/hildon-bread-crumb-trail.c:253-343 | The crumbs shown at least at their desired width are exactly those the first loop accepted. |
| BreadCrumbLayout.LayoutGreedy | src/hildon-bread-crumb-trail.c:253-305 | Every fully shown crumb fits together with all newer ones. The first crumb not fully shown would overflow the allocation. |
| BreadCrumbLayout.HeadReachesRightEdge | src/hildon-bread-crumb-trail.c:307-343 | A shown head ends at the allocation's right edge less twice the border. |
| BreadCrumbLayout.ShownCrumbsAbut | src/hildon-bread-crumb-trail.c:314-343 | Every shown crumb but the head ends where the next newer crumb begins. |
| BreadCrumbLayout.OldestShownAfterBack | src/hildon-bread-crumb-trail.c:278-343 | The oldest shown crumb starts at the back button's right edge. |
| BreadCrumbLayout.SqueezedAboveRequest | src/hildon-bread-crumb-trail.c:278-303 | A crumb shown narrower than desired is still wider than its request, and every older crumb is hidden. |
| BreadCrumbLayout.UntouchedWhenHeadCannotShow | src/hildon-bread-crumb-trail.c:278-303 | No crumb is placed or hidden exactly when the head neither fits at its desired width nor has room above its request. |
| BreadCrumbLayout.SurplusOnlyToHead | src/hildon-bread-crumb-trail.c:328-334 | Only the head crumb is ever given more than its desired width. |
| ThemeSize.CDiv | hildon/hildon-gtk-widget.c:24 | The half-screen width uses C division, which truncates toward zero. |
| ThemeSize.SetThemeSize | hildon/hildon-gtk-widget.c:84-123 | Finger height wins over thumb height. Half-screen width wins over full-screen width. Unset flags request -1, and the name gets the height's suffix. |
| ThemeSize.RenamedIffHeightSet | hildon/hildon-gtk-widget.c:94-122 | The widget is renamed exactly when a height is requested. The new name begins with the type name. |
| ThemeSize.WidthAndHeightIndependent | hildon/hildon-gtk-widget.c:94-116 | The width depends only on the width flags. The height and the name depend only on the height flags. |

## Left out

- **Out of scope:**
  - The kinetic panning physics: press, motion and release handling, velocity, deceleration and bouncing.
  - The scrollbar drawing and fading timers.
  - The GObject class setup and the properties other than the fade delay and the movement mode. Some of those setters do more than store the value. "enabled" raises or lowers the event window when realized (hildon/hildon-pannable-area.c:817-827). "panning-threshold" also writes the application-wide "gtk-dnd-drag-threshold" setting (hildon/hildon-pannable-area.c:877-891). The scrollbar-policy setters queue a resize (hildon/hildon-pannable-area.c:906-915). These effects are outside the positioning core.
  - The resize that the movement-mode setter queues (hildon/hildon-pannable-area.c:840-853). Only the policies it sets are modelled.
  - `scroll_to_child` and `jump_to_child`.
  - The other files of the library, such as hildon-gtk-entry.c.
- **Values clamped outside this model:**
  - `gtk_adjustment_set_value` clamps again inside GTK. It is not modelled. `PannableArea.Settled` shows that every value the area writes is already in range, so that clamp would change nothing.
  - gint64 overflow of the frame times is not modelled.
  - Frame times are assumed never to go back before an animation's start, as GdkFrameClock guarantees.
- **The -1 sentinel:** `set_value_internal` compares a real position against -1. Whenever the centred, clamped coordinate is exactly -1.0, it is therefore read as "keep this axis". This happens, for example, with `lower` = -10, `upper` = 100, a page of 4 and x = 1 (`PannableArea.CentredSentinel`), or when `upper - page` is -1 and x - page/2 lies above it. The model follows this.
- **Bread-crumb rendering and measurement:**
  - Widget realisation, Pango layout and text measurement: the measured widths are inputs.
  - `gtk_widget_show`/`hide`/`set_child_visible`: modelled as `Placement`.
  - Queued resizes.
  - The style property registration and its defaults: the style values are inputs.
- BreadCrumbTrail.Remove: after a match, the loop reads `p->next` from the link it has just unlinked and freed (src/hildon-bread-crumb-trail.c:443-454). That read is undefined behaviour in C. The model does not model it: it removes the first matching crumb and stops.
- BreadCrumbTrail.Push: pushing a widget already in the trail is not modelled faithfully. The source prepends a second link for it (src/hildon-bread-crumb-trail.c:600-609). GTK's parent checks then make `gtk_container_remove` ignore the widget once it has left, so `pop` (line 670) removes nothing and `clear` (lines 692-695) never ends. In the model, Pop and Clear remove the duplicate like any other crumb. GTK's parent checks are outside this model. `BreadCrumbTrail.Push` does promise that a fresh widget keeps the trail free of duplicates.
- PannableArea.ScrollTo: the documentation says that in the push mode (`HILDON_PANNABLE_AREA_MODE_PUSH`) scroll_to works like jump_to (hildon/hildon-pannable-area.c:1363-1364). The code does not do this. The "mode" property is stored (line 830) and read back by get_property (line 723), but nothing else reads it, and scroll_to always asks set_value_internal to animate (line 1427). The model follows the code, so the mode is not part of `Area`.
- PannableArea.ScrollTo and PannableArea.JumpTo: the realized check is modelled as the `realized` flag. GTK 3 gives a realized widget a frame clock, but the clock is still a parameter, independent of the flag. So the case "realized, but no frame clock" does not arise in GTK.
- BreadCrumbLayout.SizeAllocate: the gint sums of widths in size_allocate are unbounded integers here. Overflow of those sums is not modelled.
- **HildonSizeType bit values:** hildon-gtk.h is not part of this model, so the flags are a set. The screen width is a parameter.
- BreadCrumbTrail.CrumbClicked: requires the clicked crumb to be in the trail. The click handler is disconnected when a crumb leaves the trail, so no other click can arrive.
- BreadCrumbTrail.ScrollBack: requires a sensitive back button, since an insensitive button cannot be clicked.

## Findings

| source | as written | input that shows it | evidently intended | confidence | as-written member | corrected member |
|---|---|---|---|---|---|---|
| hildon/hildon-pannable-area.c:1420-1427 | scroll_to and jump_to centre and CLAMP both coordinates before set_value_internal looks for -1. A -1 coordinate reaches it as CLAMP(-1 - page/2, lower, upper - page), which is read as "keep" only when it happens to be -1.0 (see the -1 sentinel under "## Left out") | adjustments h = {lower 0, upper 1000, page 400, value 300}, v = {0, 1000, 400, 0}; jump_to(-1, 500) sets h to 0 | -1 leaves that axis where it is (the documented "-1 to ignore this axis"), so h stays at 300 | not executed | PannableArea.JumpToMovesIgnoredAxis | PannableArea.JumpToIntended |

=== FILE: bread_crumb_layout.dfy ===
/**
 * Geometry of the bread-crumb trail: the size it requests and how it
 * shares an allocation between the back button and the crumbs.
 *
 * The back button sits at the left edge. The crumbs are laid out greedily
 * from the newest one (the head of the list): each crumb that still fits
 * at its desired width is shown, the first one that does not is shown
 * squeezed when the room left exceeds its request, and every older crumb
 * is hidden. Shown crumbs run left to right from the oldest shown to the
 * head, and the head takes whatever room is left over.
 */
module BreadCrumbLayout {
  import opened BreadCrumbTrail

  datatype Rect = Rect(x: int, y: int, width: int, height: int)

  datatype Requisition = Requisition(width: int, height: int)

  /**
   * What size_allocate does to a crumb: give it a box and show it, hide it,
   * or leave it as it was.
   */
  datatype Placement = Shown(box: Rect) | Hidden | Untouched

  datatype Layout = Layout(back: Rect, crumbs: seq<Placement>)

  /** Pango units per pixel. */
  const PangoScale: int := 1024

  /** PANGO_PIXELS: Pango units to pixels, rounding to the nearest pixel (halves upwards). */
  function PangoPixels(d: int): (p: int)
    ensures PangoScale * p - PangoScale / 2 <= d < PangoScale * p + PangoScale / 2
  {
    (d + PangoScale / 2) / PangoScale
  }

  /**
   * hildon_bread_crumb_trail_size_request: the back button's request, plus
   * room for "minimum-width" letters 'm' when there is any crumb, plus the
   * border on both sides. `mWidth` is the Pango width of that string.
   */
  function SizeRequest(items: seq<Crumb>, backReq: Requisition, border: nat, mWidth: int): (r: Requisition)
    ensures r.height == backReq.height + 2 * border
    ensures |items| == 0 ==> r.width == backReq.width + 2 * border
    ensures |items| > 0 ==> PangoScale * (r.width - backReq.width - 2 * border) - PangoScale / 2 <= mWidth
                            < PangoScale * (r.width - backReq.width - 2 * border) + PangoScale / 2
  {
    var crumbsWidth := if |items| > 0 then PangoPixels(mWidth) else 0;
    Requisition(backReq.width + crumbsWidth + 2 * border, backReq.height + 2 * border)
  }

  /** The request depends on the crumbs only through whether there is any. */
  lemma SizeRequestIgnoresCrumbs(a: seq<Crumb>, b: seq<Crumb>, backReq: Requisition, border: nat, mWidth: int)
    requires (|a| == 0) == (|b| == 0)
    ensures SizeRequest(a, backReq, border, mWidth) == SizeRequest(b, backReq, border, mWidth)
  {
  }

  /** The sum of a sequence of widths. */
  function Sum(ws: seq<int>): int
  {
    if |ws| == 0 then 0 else Sum(ws[..|ws| - 1]) + ws[|ws| - 1]
  }

  /** The sum of the first `j` widths. */
  function Total(ds: seq<int>, j: nat): int
    requires j <= |ds|
  {
    Sum(ds[..j])
  }

  /** Adding the next width to a total. */
  lemma TotalStep(ds: seq<int>, j: nat)
    requires j < |ds|
    ensures Total(ds, j + 1) == Total(ds, j) + ds[j]
  {
    assert ds[..j + 1][..j] == ds[..j];
  }

  /** A crumb's width: its natural width, capped at "maximum-width". */
  function Desired(c: Crumb, maximumWidth: int): (d: int)
    ensures d <= c.naturalWidth && d <= maximumWidth
    ensures d == c.naturalWidth || d == maximumWidth
  {
    if c.naturalWidth < maximumWidth then c.naturalWidth else maximumWidth
  }

  function DesiredWidths(items: seq<Crumb>, maximumWidth: int): (ds: seq<int>)
    ensures |ds| == |items|
    ensures forall i :: 0 <= i < |items| ==> ds[i] == Desired(items[i], maximumWidth)
  {
    seq(|items|, i requires 0 <= i < |items| => Desired(items[i], maximumWidth))
  }

  /**
   * The first loop of size_allocate, from crumb `k` on: a crumb is
   * accepted while the back button and the crumbs accepted so far leave
   * room for its desired width. The result is the number accepted.
   */
  function Fit(ds: seq<int>, used: int, limit: int, k: nat): (n: nat)
    requires k <= |ds|
    ensures k <= n <= |ds|
    ensures forall j :: k < j <= n ==> used + Total(ds, j) <= limit
    ensures n < |ds| ==> used + Total(ds, n + 1) > limit
    decreases |ds| - k
  {
    if k == |ds| then k
    else
      TotalStep(ds, k);
      if used + Total(ds, k) + ds[k] <= limit then Fit(ds, used, limit, k + 1)
      else k
  }

  /**
   * The second loop of size_allocate: starting at `x`, lay the widths out
   * from the last index to index 0. The result holds each one's left edge.
   */
  function Row(ws: seq<int>, x: int): (xs: seq<int>)
    ensures |xs| == |ws|
    ensures |ws| > 0 ==> xs[|ws| - 1] == x
    ensures forall i :: 0 <= i < |ws| - 1 ==> xs[i] == xs[i + 1] + ws[i + 1]
    ensures |ws| > 0 ==> xs[0] + ws[0] == x + Sum(ws)
    decreases |ws|
  {
    if |ws| == 0 then []
    else Row(ws[..|ws| - 1], x + ws[|ws| - 1]) + [x]
  }

  /** The decisions size_allocate takes before placing any crumb. */
  datatype Plan = Plan(accepted: nat, partial: bool, room: int, extra: int, widths: seq<int>, lefts: seq<int>)

  function PlanFor(alloc: Rect, border: nat, backReq: Requisition, items: seq<Crumb>, maximumWidth: int): (p: Plan)
    ensures p.accepted <= |items|
    ensures |p.widths| == |p.lefts| == p.accepted
    ensures p.partial ==> p.accepted < |items|
  {
    var allocationWidth := alloc.width - 2 * border;
    var ds := DesiredWidths(items, maximumWidth);
    var k := Fit(ds, backReq.width, allocationWidth, 0);
    var width := backReq.width + Total(ds, k);
    var room := allocationWidth - width;
    var partial := k < |items| && room > items[k].requestWidth;
    var extra := if k < |items| then (if partial then 0 else room)
                 else if width < allocationWidth then allocationWidth - width else 0;
    Arrange(k, partial, room, extra, ds, alloc.x + backReq.width)
  }

  /**
   * The plan once the first loop has decided: the accepted crumbs keep
   * their desired widths except the head, which also takes the surplus,
   * and the row starts right of the squeezed crumb, if any.
   */
  function Arrange(k: nat, partial: bool, room: int, extra: int, ds: seq<int>, x0: int): (p: Plan)
    requires k <= |ds|
    ensures p.accepted == k && p.partial == partial && p.room == room && p.extra == extra
    ensures |p.widths| == |p.lefts| == k
    ensures forall i :: 0 < i < k ==> p.widths[i] == ds[i]
    ensures k > 0 ==> p.widths[0] == ds[0] + extra
    ensures p.lefts == Row(p.widths, if partial then x0 + room else x0)
    ensures k > 0 ==> Sum(p.widths) == Total(ds, k) + extra
    ensures k > 0 ==> p.lefts[0] + p.widths[0] == (if partial then x0 + room else x0) + Total(ds, k) + extra
  {
    var ws := seq(k, i requires 0 <= i < k => if i == 0 then ds[i] + extra else ds[i]);
    assert k > 0 ==> Sum(ws) == Total(ds, k) + extra by {
      if k > 0 {
        SumBumpFirst(ws, ds[..k], extra);
      }
    }
    Plan(k, partial, room, extra, ws, Row(ws, if partial then x0 + room else x0))
  }

  /**
   * What the plan records: the number of crumbs the first loop accepts, the
   * room left after them, whether the next crumb is squeezed in, the
   * surplus the head receives and the boxes of the second loop.
   */
  lemma PlanFacts(alloc: Rect, border: nat, backReq: Requisition, items: seq<Crumb>, maximumWidth: int)
    ensures var p := PlanFor(alloc, border, backReq, items, maximumWidth);
            var ds := DesiredWidths(items, maximumWidth);
            var k := p.accepted;
            && k == Fit(ds, backReq.width, alloc.width - 2 * border, 0)
            && p.room == alloc.width - 2 * border - backReq.width - Total(ds, k)
            && p.partial == (k < |items| && p.room > items[k].requestWidth)
            && (k > 0 || p.partial ==> p.extra >= 0)
            && (p.partial ==> p.extra == 0)
            && (k > 0 && !p.partial ==> p.extra == p.room)
            && (forall i :: 0 < i < k ==> p.widths[i] == ds[i])
            && (k > 0 ==> p.widths[0] == ds[0] + p.extra)
  {
  }

  /** The second loop starts right of the squeezed crumb, or at the back button's right edge. */
  lemma PlanRow(alloc: Rect, border: nat, backReq: Requisition, items: seq<Crumb>, maximumWidth: int)
    ensures var p := PlanFor(alloc, border, backReq, items, maximumWidth);
            p.lefts == Row(p.widths, if p.partial then alloc.x + backReq.width + p.room else alloc.x + backReq.width)
  {
  }

  /**
   * Where the plan puts crumb `i`: accepted crumbs at their place in the
   * row, the squeezed crumb at the back button's right edge, the rest
   * hidden, unless nothing was placed at all.
   */
  function Place(p: Plan, i: nat, left: int, top: int, height: int): (c: Placement)
    requires |p.widths| == |p.lefts| == p.accepted
  {
    if i < p.accepted then Shown(Rect(p.lefts[i], top, p.widths[i], height))
    else if i == p.accepted && p.partial then Shown(Rect(left, top, p.room, height))
    else if p.accepted > 0 || p.partial then Hidden
    else Untouched
  }

  /** The placements of `n` crumbs. */
  function Placements(p: Plan, n: nat, left: int, top: int, height: int): (cs: seq<Placement>)
    requires |p.widths| == |p.lefts| == p.accepted
    ensures |cs| == n
    ensures forall i :: 0 <= i < n ==> cs[i] == Place(p, i, left, top, height)
  {
    seq(n, i requires 0 <= i < n => Place(p, i, left, top, height))
  }

  /**
   * hildon_bread_crumb_trail_size_allocate. The back button gets its
   * request at the allocation's corner. Crumbs all get the allocation's top
   * and the back button's height. When the head crumb neither fits nor can
   * be squeezed, no crumb is placed and none is hidden.
   */
  function SizeAllocate(alloc: Rect, border: nat, backReq: Requisition, items: seq<Crumb>, maximumWidth: int): (l: Layout)
    ensures l.back == Rect(alloc.x, alloc.y, backReq.width, backReq.height)
    ensures |l.crumbs| == |items|
    ensures forall i :: 0 <= i < |items| && l.crumbs[i].Shown? ==>
              l.crumbs[i].box.y == alloc.y && l.crumbs[i].box.height == backReq.height
  {
    var back := Rect(alloc.x, alloc.y, backReq.width, backReq.height);
    if |items| == 0 then Layout(back, [])
    else
      var p := PlanFor(alloc, border, backReq, items, maximumWidth);
      Layout(back, Placements(p, |items|, alloc.x + backReq.width, alloc.y, backReq.height))
  }

  /** A sum over widths that differ only in the first, by `e`, differs by `e`. */
  lemma {:induction false} SumBumpFirst(a: seq<int>, b: seq<int>, e: int)
    requires |a| == |b| > 0
    requires a[0] == b[0] + e
    requires forall i :: 0 < i < |a| ==> a[i] == b[i]
    ensures Sum(a) == Sum(b) + e
    decreases |a|
  {
    if |a| > 1 {
      SumBumpFirst(a[..|a| - 1], b[..|b| - 1], e);
    }
  }

  /** Crumb `i` is shown at least at its desired width. */
  predicate Full(l: Layout, items: seq<Crumb>, maximumWidth: int, i: nat)
    requires |l.crumbs| == |items| && i < |items|
  {
    l.crumbs[i].Shown? && l.crumbs[i].box.width >= Desired(items[i], maximumWidth)
  }

  /**
   * The crumbs shown form a run from the head, the crumbs hidden form a run
   * to the oldest, and a crumb is left as it was only when all are.
   */
  lemma LayoutShape(alloc: Rect, border: nat, backReq: Requisition, items: seq<Crumb>, maximumWidth: int)
    ensures var l := SizeAllocate(alloc, border, backReq, items, maximumWidth);
            && (forall i, j :: 0 <= j < i < |items| && l.crumbs[i].Shown? ==> l.crumbs[j].Shown?)
            && (forall i, j :: 0 <= i < j < |items| && l.crumbs[i].Hidden? ==> l.crumbs[j].Hidden?)
            && (forall i :: 0 <= i < |items| && l.crumbs[i].Untouched? ==> forall j :: 0 <= j < |items| ==> l.crumbs[j].Untouched?)
  {
    if |items| > 0 {
      var l := SizeAllocate(alloc, border, backReq, items, maximumWidth);
      var p := PlanFor(alloc, border, backReq, items, maximumWidth);
      assert forall i :: 0 <= i < |items| ==> l.crumbs[i] == Place(p, i, alloc.x + backReq.width, alloc.y, backReq.height);
    }
  }

  /** The crumbs shown at least at their desired width are the ones the first loop accepted. */
  lemma {:induction false} FullIsAccepted(alloc: Rect, border: nat, backReq: Requisition, items: seq<Crumb>, maximumWidth: int)
    requires |items| > 0
    ensures var l := SizeAllocate(alloc, border, backReq, items, maximumWidth);
            var k := PlanFor(alloc, border, backReq, items, maximumWidth).accepted;
            forall i :: 0 <= i < |items| ==> (Full(l, items, maximumWidth, i) <==> i < k)
  {
    var l := SizeAllocate(alloc, border, backReq, items, maximumWidth);
    var p := PlanFor(alloc, border, backReq, items, maximumWidth);
    PlanFacts(alloc, border, backReq, items, maximumWidth);
    var ds := DesiredWidths(items, maximumWidth);
    var k := p.accepted;
    forall i | 0 <= i < k
      ensures Full(l, items, maximumWidth, i)
    {
      assert l.crumbs[i].box.width == p.widths[i];
    }
    if k < |items| {
      TotalStep(ds, k);
      assert backReq.width + Total(ds, k) + ds[k] > alloc.width - 2 * border;
    }
  }

  /**
   * The crumbs shown at their desired width are exactly the longest run
   * from the head that fits beside the back button; the first crumb after
   * that run would overflow the allocation.
   */
  lemma {:induction false} LayoutGreedy(alloc: Rect, border: nat, backReq: Requisition, items: seq<Crumb>, maximumWidth: int)
    ensures var l := SizeAllocate(alloc, border, backReq, items, maximumWidth);
            var ds := DesiredWidths(items, maximumWidth);
            && (forall i :: 0 <= i < |items| && Full(l, items, maximumWidth, i) ==>
                  backReq.width + Total(ds, i + 1) <= alloc.width - 2 * border)
            && (forall i :: (0 <= i < |items| && !Full(l, items, maximumWidth, i) &&
                             forall j :: 0 <= j < i ==> Full(l, items, maximumWidth, j)) ==>
                  backReq.width + Total(ds, i + 1) > alloc.width - 2 * border)
  {
    if |items| > 0 {
      var l := SizeAllocate(alloc, border, backReq, items, maximumWidth);
      var k := PlanFor(alloc, border, backReq, items, maximumWidth).accepted;
      FullIsAccepted(alloc, border, backReq, items, maximumWidth);
      forall i | (0 <= i < |items| && !Full(l, items, maximumWidth, i) &&
                  forall j :: 0 <= j < i ==> Full(l, items, maximumWidth, j))
        ensures i == k
      {
        assert k < |items| ==> !Full(l, items, maximumWidth, k);
      }
    }
  }

  /**
   * When the head crumb is shown, its right edge is the right edge of the
   * allocation less twice the border: the head takes up all room left over.
   */
  lemma {:induction false} HeadReachesRightEdge(alloc: Rect, border: nat, backReq: Requisition, items: seq<Crumb>, maximumWidth: int)
    requires |items| > 0
    ensures var l := SizeAllocate(alloc, border, backReq, items, maximumWidth);
            l.crumbs[0].Shown? ==> l.crumbs[0].box.x + l.crumbs[0].box.width == alloc.x + alloc.width - 2 * border
  {
    var l := SizeAllocate(alloc, border, backReq, items, maximumWidth);
    var p := PlanFor(alloc, border, backReq, items, maximumWidth);
    PlanFacts(alloc, border, backReq, items, maximumWidth);
    PlanRow(alloc, border, backReq, items, maximumWidth);
    var ds := DesiredWidths(items, maximumWidth);
    var k := p.accepted;
    if k > 0 {
      var start := if p.partial then alloc.x + backReq.width + p.room else alloc.x + backReq.width;
      assert l.crumbs[0].box.x + l.crumbs[0].box.width == start + Total(ds, k) + p.extra;
    }
  }

  /** Each shown crumb but the head ends where the next newer crumb begins. */
  lemma {:induction false} ShownCrumbsAbut(alloc: Rect, border: nat, backReq: Requisition, items: seq<Crumb>, maximumWidth: int)
    ensures var l := SizeAllocate(alloc, border, backReq, items, maximumWidth);
            forall i :: 0 < i < |items| && l.crumbs[i].Shown? ==>
              l.crumbs[i - 1].Shown? && l.crumbs[i].box.x + l.crumbs[i].box.width == l.crumbs[i - 1].box.x
  {
    var l := SizeAllocate(alloc, border, backReq, items, maximumWidth);
    if |items| > 0 {
      var p := PlanFor(alloc, border, backReq, items, maximumWidth);
      PlanRow(alloc, border, backReq, items, maximumWidth);
      forall i | 0 < i < |items| && l.crumbs[i].Shown?
        ensures l.crumbs[i - 1].Shown? && l.crumbs[i].box.x + l.crumbs[i].box.width == l.crumbs[i - 1].box.x
      {
        assert l.crumbs[i] == Place(p, i, alloc.x + backReq.width, alloc.y, backReq.height);
        assert l.crumbs[i - 1] == Place(p, i - 1, alloc.x + backReq.width, alloc.y, backReq.height);
        if i < p.accepted {
          assert p.lefts[i - 1] == p.lefts[i] + p.widths[i];
        } else {
          assert i == p.accepted && p.partial;
          assert p.lefts[i - 1] == alloc.x + backReq.width + p.room;
        }
      }
    }
  }

  /** The oldest shown crumb starts at the back button's right edge. */
  lemma {:induction false} OldestShownAfterBack(alloc: Rect, border: nat, backReq: Requisition, items: seq<Crumb>, maximumWidth: int)
    ensures var l := SizeAllocate(alloc, border, backReq, items, maximumWidth);
            forall i :: (0 <= i < |items| && l.crumbs[i].Shown? && (i + 1 == |items| || !l.crumbs[i + 1].Shown?)) ==>
              l.crumbs[i].box.x == alloc.x + backReq.width
  {
    var l := SizeAllocate(alloc, border, backReq, items, maximumWidth);
    if |items| > 0 {
      var p := PlanFor(alloc, border, backReq, items, maximumWidth);
      PlanRow(alloc, border, backReq, items, maximumWidth);
      forall i | (0 <= i < |items| && l.crumbs[i].Shown? && (i + 1 == |items| || !l.crumbs[i + 1].Shown?))
        ensures l.crumbs[i].box.x == alloc.x + backReq.width
      {
        assert l.crumbs[i] == Place(p, i, alloc.x + backReq.width, alloc.y, backReq.height);
        assert i + 1 < |items| ==> l.crumbs[i + 1] == Place(p, i + 1, alloc.x + backReq.width, alloc.y, backReq.height);
        if p.partial {
          assert i == p.accepted;
        } else {
          assert i == p.accepted - 1;
          assert p.lefts[i] == alloc.x + backReq.width;
        }
      }
    }
  }

  /**
   * A crumb shown narrower than its desired width is still wider than it asks
   * to be, and every older crumb is hidden.
   */
  lemma {:induction false} SqueezedAboveRequest(alloc: Rect, border: nat, backReq: Requisition, items: seq<Crumb>, maximumWidth: int)
    ensures var l := SizeAllocate(alloc, border, backReq, items, maximumWidth);
            forall i :: (0 <= i < |items| && l.crumbs[i].Shown? && l.crumbs[i].box.width < Desired(items[i], maximumWidth)) ==>
              && items[i].requestWidth < l.crumbs[i].box.width
              && (i + 1 == |items| || l.crumbs[i + 1].Hidden?)
              && (forall j :: i < j < |items| ==> l.crumbs[j].Hidden?)
  {
    var l := SizeAllocate(alloc, border, backReq, items, maximumWidth);
    LayoutShape(alloc, border, backReq, items, maximumWidth);
    if |items| > 0 {
      var p := PlanFor(alloc, border, backReq, items, maximumWidth);
      PlanFacts(alloc, border, backReq, items, maximumWidth);
      FullIsAccepted(alloc, border, backReq, items, maximumWidth);
      forall i | (0 <= i < |items| && l.crumbs[i].Shown? && l.crumbs[i].box.width < Desired(items[i], maximumWidth))
        ensures && items[i].requestWidth < l.crumbs[i].box.width
                && (i + 1 == |items| || l.crumbs[i + 1].Hidden?)
                && (forall j :: i < j < |items| ==> l.crumbs[j].Hidden?)
      {
        assert !Full(l, items, maximumWidth, i);
        assert l.crumbs[i] == Place(p, i, alloc.x + backReq.width, alloc.y, backReq.height);
        assert i + 1 < |items| ==> l.crumbs[i + 1] == Place(p, i + 1, alloc.x + backReq.width, alloc.y, backReq.height);
      }
    }
  }

  /**
   * The crumbs are left as they were exactly when the head crumb does not
   * fit beside the back button at its desired width and the room beside the
   * back button does not exceed the head's request.
   */
  lemma {:induction false} UntouchedWhenHeadCannotShow(alloc: Rect, border: nat, backReq: Requisition, items: seq<Crumb>, maximumWidth: int)
    requires |items| > 0
    ensures var l := SizeAllocate(alloc, border, backReq, items, maximumWidth);
            var room := alloc.width - 2 * border - backReq.width;
            l.crumbs[0].Untouched? <==> room < Desired(items[0], maximumWidth) && room <= items[0].requestWidth
  {
    var p := PlanFor(alloc, border, backReq, items, maximumWidth);
    PlanFacts(alloc, border, backReq, items, maximumWidth);
    var ds := DesiredWidths(items, maximumWidth);
    TotalStep(ds, 0);
    assert Total(ds, 0) == 0;
  }

  /** Only the head crumb is ever given more than its desired width. */
  lemma {:induction false} SurplusOnlyToHead(alloc: Rect, border: nat, backReq: Requisition, items: seq<Crumb>, maximumWidth: int)
    ensures var l := SizeAllocate(alloc, border, backReq, items, maximumWidth);
            forall i :: 0 < i < |items| && l.crumbs[i].Shown? ==> l.crumbs[i].box.width <= Desired(items[i], maximumWidth)
  {
    var l := SizeAllocate(alloc, border, backReq, items, maximumWidth);
    if |items| > 0 {
      var p := PlanFor(alloc, border, backReq, items, maximumWidth);
      PlanFacts(alloc, border, backReq, items, maximumWidth);
      var ds := DesiredWidths(items, maximumWidth);
      var k := p.accepted;
      if k < |items| {
        TotalStep(ds, k);
      }
      forall i | 0 < i < |items| && l.crumbs[i].Shown?
        ensures l.crumbs[i].box.width <= Desired(items[i], maximumWidth)
      {
        assert l.crumbs[i] == Place(p, i, alloc.x + backReq.width, alloc.y, backReq.height);
      }
    }
  }
}

=== FILE: bread_crumb_trail.dfy ===
/**
 * HildonBreadCrumbTrail as a stack of crumbs. The list keeps the newest
 * crumb at its head (index 0); the back button beside it is sensitive
 * exactly when there is a crumb to go back to.
 *
 * A crumb widget is identified by `key`; its "bread-crumb-id" data is
 * `id` (None for a NULL pointer). The natural width the crumb reports
 * and the width it requests come from Pango and are carried as data.
 */
module BreadCrumbTrail {
  import opened Wrappers

  datatype Crumb = Crumb(key: nat, text: string, id: Option<nat>, naturalWidth: int, requestWidth: int)

  datatype Trail = Trail(items: seq<Crumb>, backSensitive: bool)

  /** What the "crumb-clicked" signal carries. */
  type Emitted = Option<nat>

  /** A child the container hands to a forall callback. */
  datatype Child = CrumbChild(key: nat) | BackButton

  /** The back button is sensitive exactly when the trail holds two crumbs or more. */
  predicate Consistent(t: Trail)
  {
    t.backSensitive == (|t.items| >= 2)
  }

  /** No widget is in the trail twice. */
  predicate Distinct(items: seq<Crumb>)
  {
    forall i, j :: 0 <= i < j < |items| ==> items[i].key != items[j].key
  }

  predicate Holds(items: seq<Crumb>, key: nat)
  {
    exists i :: 0 <= i < |items| && items[i].key == key
  }

  /** hildon_bread_crumb_trail_init: no crumbs, and the back button starts insensitive. */
  function New(): (t: Trail)
    ensures Consistent(t) && |t.items| == 0
  {
    Trail([], false)
  }

  /** update_back_button_sensitivity: recomputed from the list length. */
  function UpdateSensitivity(t: Trail): (r: Trail)
    ensures r.items == t.items
    ensures Consistent(r)
  {
    Trail(t.items, |t.items| >= 2)
  }

  /** The position of the first crumb with `key`, or the length when there is none. */
  function FindKey(items: seq<Crumb>, key: nat): (i: nat)
    ensures i <= |items|
    ensures i < |items| ==> items[i].key == key
    ensures forall j :: 0 <= j < i ==> items[j].key != key
    ensures i == |items| <==> !Holds(items, key)
  {
    if |items| == 0 then 0
    else if items[0].key == key then 0
    else 1 + FindKey(items[1..], key)
  }

  /** The list with the first crumb carrying `key` unlinked; the list itself when there is none. */
  function RemoveFirst(items: seq<Crumb>, key: nat): (r: seq<Crumb>)
  {
    if |items| == 0 then []
    else if items[0].key == key then items[1..]
    else [items[0]] + RemoveFirst(items[1..], key)
  }

  /** Unlinking splices the list around the first crumb with `key`. */
  lemma {:induction false} RemoveFirstSplices(items: seq<Crumb>, key: nat)
    ensures FindKey(items, key) < |items| ==>
              RemoveFirst(items, key) == items[..FindKey(items, key)] + items[FindKey(items, key) + 1..]
    ensures FindKey(items, key) == |items| ==> RemoveFirst(items, key) == items
  {
    if |items| > 0 && items[0].key != key {
      RemoveFirstSplices(items[1..], key);
      var i := FindKey(items[1..], key);
      assert FindKey(items, key) == i + 1;
      if i < |items| - 1 {
        assert [items[0]] + items[1..][..i] == items[..i + 1];
        assert items[1..][i + 1..] == items[i + 2..];
      } else {
        assert [items[0]] + items[1..] == items;
      }
    }
  }

  /**
   * hildon_bread_crumb_trail_remove: unlink the first crumb with `key` and
   * recompute the sensitivity; a widget that is not in the trail changes
   * nothing.
   */
  function Remove(t: Trail, key: nat): (r: Trail)
    ensures !Holds(t.items, key) ==> r == t
    ensures Holds(t.items, key) ==> |r.items| == |t.items| - 1 && Consistent(r)
    ensures Holds(t.items, key) ==>
              r.items == t.items[..FindKey(t.items, key)] + t.items[FindKey(t.items, key) + 1..]
    ensures Consistent(t) ==> Consistent(r)
  {
    RemoveFirstSplices(t.items, key);
    if Holds(t.items, key) then UpdateSensitivity(Trail(RemoveFirst(t.items, key), t.backSensitive))
    else t
  }

  /** Dropping the crumb at `i` from a list without duplicates leaves none, and none with its key. */
  lemma {:induction false} DropKeepsDistinct(items: seq<Crumb>, i: nat)
    requires Distinct(items) && i < |items|
    ensures Distinct(items[..i] + items[i + 1..])
    ensures !Holds(items[..i] + items[i + 1..], items[i].key)
  {
    var r := items[..i] + items[i + 1..];
    assert forall j :: 0 <= j < |r| ==> r[j] == items[if j < i then j else j + 1];
  }

  /** In a trail without duplicates, removing a crumb removes its widget entirely. */
  lemma {:induction false} RemoveKeepsDistinct(t: Trail, key: nat)
    requires Distinct(t.items)
    ensures Distinct(Remove(t, key).items)
    ensures !Holds(Remove(t, key).items, key)
  {
    var i := FindKey(t.items, key);
    RemoveFirstSplices(t.items, key);
    if i < |t.items| {
      DropKeepsDistinct(t.items, i);
    }
  }

  /** hildon_bread_crumb_trail_push: the crumb becomes the head; a NULL id keeps the crumb's own. */
  function Push(t: Trail, item: Crumb, id: Option<nat>): (r: Trail)
    ensures |r.items| == |t.items| + 1 && r.items[1..] == t.items
    ensures r.items[0] == (if id.Some? then item.(id := id) else item)
    ensures r.items[0].key == item.key && r.items[0].text == item.text
    ensures r.items[0].id == (if id.Some? then id else item.id)
    ensures Consistent(r)
    ensures Distinct(t.items) && !Holds(t.items, item.key) ==> Distinct(r.items)
  {
    var crumb := if id.Some? then item.(id := id) else item;
    UpdateSensitivity(Trail([crumb] + t.items, t.backSensitive))
  }

  /**
   * hildon_bread_crumb_trail_push_text: a NULL text is refused; otherwise a
   * new crumb labelled `text`, carrying `id`, becomes the head. The new
   * widget's identity and its measured widths are inputs.
   */
  function PushText(t: Trail, text: Option<string>, id: Option<nat>,
                    key: nat, naturalWidth: int, requestWidth: int): (r: Trail)
    ensures text.None? ==> r == t
    ensures text.Some? ==> && |r.items| == |t.items| + 1
                           && r.items[1..] == t.items
                           && r.items[0] == Crumb(key, text.value, id, naturalWidth, requestWidth)
                           && Consistent(r)
  {
    if text.None? then t
    else Push(t, Crumb(key, text.value, None, naturalWidth, requestWidth), id)
  }

  /** hildon_bread_crumb_trail_pop: remove the head crumb, if any. */
  function Pop(t: Trail): (r: Trail)
    ensures |t.items| == 0 ==> r == t
    ensures |t.items| > 0 ==> r.items == t.items[1..] && Consistent(r)
  {
    if |t.items| == 0 then t
    else UpdateSensitivity(Remove(t, t.items[0].key))
  }

  /** Popping right after a push gives back the trail pushed onto. */
  lemma PopAfterPush(t: Trail, item: Crumb, id: Option<nat>)
    requires Consistent(t)
    ensures Pop(Push(t, item, id)) == t
  {
  }

  /** Pushing a crumb and removing it again gives back the trail: the pushed crumb is the first match. */
  lemma RemoveAfterPush(t: Trail, item: Crumb, id: Option<nat>)
    requires Consistent(t)
    ensures Remove(Push(t, item, id), item.key) == t
  {
  }

  /** Removing the head crumb is popping. */
  lemma RemoveHeadIsPop(t: Trail)
    requires |t.items| > 0
    ensures Remove(t, t.items[0].key) == Pop(t)
  {
  }

  /** `n` pops in a row: the reference for what clearing and clicking do. */
  function PopTimes(t: Trail, n: nat): (r: Trail)
    requires n <= |t.items|
    ensures r.items == t.items[n..]
    ensures n > 0 ==> Consistent(r)
    ensures n == 0 ==> r == t
    decreases n
  {
    if n == 0 then t else PopTimes(Pop(t), n - 1)
  }

  /** hildon_bread_crumb_trail_clear: pop until the trail is empty. */
  method Clear(t: Trail) returns (r: Trail)
    ensures r.items == []
    ensures |t.items| > 0 ==> !r.backSensitive
    ensures |t.items| == 0 ==> r == t
    ensures r == PopTimes(t, |t.items|)
  {
    r := t;
    var popped := 0;
    while |r.items| > 0
      invariant popped <= |t.items|
      invariant r == PopTimes(t, popped)
      decreases |r.items|
    {
      PopTimesStep(t, popped);
      r := Pop(r);
      popped := popped + 1;
    }
  }

  /** One more pop after `n` pops is `n + 1` pops. */
  lemma {:induction false} PopTimesStep(t: Trail, n: nat)
    requires n < |t.items|
    ensures Pop(PopTimes(t, n)) == PopTimes(t, n + 1)
    decreases n
  {
    if n > 0 {
      PopTimesStep(Pop(t), n - 1);
    }
  }

  /**
   * crumb_clicked_cb: remove crumbs from the head until the clicked one is
   * the head, then emit its id. The result is as many pops as there are
   * crumbs above the clicked one, so the older crumbs are untouched.
   * Clicks only come from crumbs in the trail (the handler is disconnected
   * when a crumb leaves it).
   */
  method CrumbClicked(t: Trail, key: nat) returns (r: Trail, emitted: Emitted)
    requires Holds(t.items, key)
    ensures r == PopTimes(t, FindKey(t.items, key))
    ensures r.items[0].key == key
    ensures emitted == r.items[0].id
  {
    var target := FindKey(t.items, key);
    r := t;
    var removed := 0;
    while r.items[0].key != key
      invariant removed <= target < |t.items|
      invariant r.items == t.items[removed..]
      invariant removed > 0 ==> Consistent(r)
      invariant removed == 0 ==> r == t
      decreases target - removed
    {
      assert removed != target;
      RemoveHeadIsPop(r);
      r := Remove(r, r.items[0].key);
      removed := removed + 1;
    }
    assert removed == target;
    emitted := r.items[0].id;
  }

  /** Clicking the head crumb leaves the trail as it was. */
  lemma ClickHeadKeepsTrail(t: Trail)
    requires |t.items| > 0
    ensures PopTimes(t, FindKey(t.items, t.items[0].key)) == t
  {
  }

  /**
   * hildon_bread_crumb_trail_scroll_back: pop, then emit the id of the new
   * head. The back button is only clickable while sensitive, so the trail
   * holds a crumb to go back to.
   */
  function ScrollBack(t: Trail): (result: (Trail, Emitted))
    requires Consistent(t) && t.backSensitive
    ensures result.0.items == t.items[1..]
    ensures result.1 == t.items[1].id
    ensures Consistent(result.0)
  {
    var r := Pop(t);
    (r, r.items[0].id)
  }

  /** Going back is clicking the crumb just behind the head. */
  lemma {:induction false} ScrollBackIsClickingPrevious(t: Trail)
    requires Consistent(t) && t.backSensitive && Distinct(t.items)
    ensures FindKey(t.items, t.items[1].key) == 1
    ensures ScrollBack(t).0 == PopTimes(t, FindKey(t.items, t.items[1].key))
    ensures ScrollBack(t).1 == t.items[FindKey(t.items, t.items[1].key)].id
  {
    assert t.items[0].key != t.items[1].key;
  }

  /** hildon_bread_crumb_trail_forall: the crumbs head first, then the back button with internals. */
  function Forall(t: Trail, includeInternals: bool): (r: seq<Child>)
    ensures |r| == |t.items| + (if includeInternals then 1 else 0)
    ensures forall i :: 0 <= i < |t.items| ==> r[i] == CrumbChild(t.items[i].key)
    ensures BackButton in r <==> includeInternals
    ensures includeInternals ==> r[|r| - 1] == BackButton
  {
    var crumbs := seq(|t.items|, i requires 0 <= i < |t.items| => CrumbChild(t.items[i].key));
    if includeInternals then crumbs + [BackButton] else crumbs
  }
}

=== FILE: glib.dfy ===
/** The glib integer widths and macros the widgets' arithmetic relies on. */
module GLib {

  /** guint arithmetic wraps modulo 2^32. */
  const Uint32Modulus: int := 0x1_0000_0000

  /** A guint value. */
  predicate IsUint(n: int)
  {
    0 <= n < Uint32Modulus
  }

  /** glib's MIN on gdouble. */
  function Min(a: real, b: real): real
  {
    if a < b then a else b
  }

  /** glib's MAX on gdouble. */
  function Max(a: real, b: real): real
  {
    if a > b then a else b
  }
}

=== FILE: pannable_area.dfy ===
/**
 * The positioning and scroll-animation core of HildonPannableArea.
 *
 * Each scroll direction is an adjustment `Axis`. A position request is
 * resolved per axis by `ResolveTarget`, then either applied at once or
 * turned into an animation that the frame clock drives tick by tick with
 * a cubic ease-out. The frame clock is a parameter: its current frame time
 * and the handler id it hands out when the update signal is connected.
 */
module PannableArea {
  import opened Wrappers
  import opened GLib

  /** One GtkAdjustment as the pannable area reads and writes it. */
  datatype Axis = Axis(lower: real, upper: real, pageSize: real, value: real)
  {
    /** True when the content is larger than the page: a scroll bar would show. */
    predicate Scrollable()
    {
      upper - lower > pageSize
    }

    /** The positions a resolved request can take: `lower` up to the last full page, never below `lower`. */
    predicate InRange(p: real)
    {
      lower <= p <= Max(lower, upper - pageSize)
    }

    function WithValue(p: real): Axis
    {
      this.(value := p)
    }
  }

  /** The value a caller passes for an axis it wants left where it is. */
  const Ignore: real := -1.0

  /** The duration the area is created with (in milliseconds). */
  const DefaultDuration: nat := 200

  /**
   * The position set_value_internal settles on for one axis: the current
   * value for the `Ignore` sentinel, otherwise MIN against the last full page
   * followed by MAX against `lower`, so the result is never below `lower`
   * even when the page is larger than the range.
   */
  function ResolveTarget(ax: Axis, requested: real): (r: real)
    ensures requested == Ignore ==> r == ax.value
    ensures requested != Ignore ==> ax.InRange(r)
    ensures requested != Ignore && ax.InRange(requested) ==> r == requested
    ensures requested != Ignore && requested < ax.lower ==> r == ax.lower
    ensures (requested != Ignore && requested > Max(ax.lower, ax.upper - ax.pageSize))
              ==> r == Max(ax.lower, ax.upper - ax.pageSize)
  {
    if requested == Ignore then ax.value
    else Max(Min(requested, ax.upper - ax.pageSize), ax.lower)
  }

  /** The frame clock as set_value_internal finds it attached to the widget. */
  datatype FrameClock = FrameClock(frameTime: int, handlerId: nat)

  /** The clock, when there is one, hands out a non-zero handler id on connection. */
  predicate ClockOk(clock: Option<FrameClock>)
  {
    clock.Some? ==> clock.value.handlerId > 0
  }

  /**
   * The part of the private state that positioning and animation touch.
   * `tickId` is the update-handler id (0 when none), `connected` says whether
   * that handler is attached to the frame clock, and `clockUpdates` counts the
   * begin_updating requests the area holds on the clock. `realized` is the
   * widget's GTK realized flag, which scroll_to and jump_to demand.
   */
  datatype Area = Area(
    h: Axis, v: Axis,
    hsource: real, htarget: real, vsource: real, vtarget: real,
    duration: nat, startTime: int, endTime: int,
    tickId: nat, connected: bool, clockUpdates: nat, realized: bool)

  /** Bookkeeping that every operation keeps. */
  predicate Valid(a: Area)
  {
    && a.connected == (a.tickId != 0)
    && a.clockUpdates == (if a.tickId != 0 then 1 else 0)
    && a.duration < Uint32Modulus
    && a.startTime <= a.endTime
  }

  /** Every position the area holds or heads for lies in its axis's range. */
  predicate Settled(a: Area)
  {
    && a.h.InRange(a.h.value)
    && a.v.InRange(a.v.value)
    && (a.tickId != 0 ==>
          a.h.InRange(a.hsource) && a.h.InRange(a.htarget) &&
          a.v.InRange(a.vsource) && a.v.InRange(a.vtarget))
  }

  /**
   * A freshly initialised area: GObject zero-fills the private data, then
   * duration := 200. A new widget is not yet realized.
   */
  function NewArea(h: Axis, v: Axis): (a: Area)
    ensures Valid(a)
    ensures a.tickId == 0 && a.duration == DefaultDuration && !a.realized
    ensures h.InRange(h.value) && v.InRange(v.value) ==> Settled(a)
  {
    Area(h, v, 0.0, 0.0, 0.0, 0.0, DefaultDuration, 0, 0, 0, false, 0, false)
  }

  /** `1000 * priv->duration`: an unsigned 32-bit product, so it wraps. */
  function AnimationSpan(duration: nat): (span: nat)
    ensures span < Uint32Modulus
    ensures 1000 * duration < Uint32Modulus ==> span == 1000 * duration
  {
    (1000 * duration) % Uint32Modulus
  }

  /** Connects the tick handler unless one is already connected. */
  function BeginUpdating(a: Area, handlerId: nat): (r: Area)
    requires handlerId > 0
    ensures r.tickId != 0
    ensures a.tickId != 0 ==> r == a
    ensures Valid(a) ==> Valid(r)
    ensures r == a.(tickId := r.tickId, connected := r.connected, clockUpdates := r.clockUpdates)
  {
    if a.tickId == 0 then
      a.(tickId := handlerId, connected := true, clockUpdates := a.clockUpdates + 1)
    else
      a
  }

  /** Disconnects the tick handler if one is connected. */
  function EndUpdating(a: Area): (r: Area)
    ensures r.tickId == 0
    ensures a.tickId == 0 ==> r == a
    ensures Valid(a) ==> Valid(r) && !r.connected && r.clockUpdates == 0
    ensures r == a.(tickId := r.tickId, connected := r.connected, clockUpdates := r.clockUpdates)
  {
    if a.tickId != 0 then
      a.(tickId := 0, connected := false,
         clockUpdates := if a.clockUpdates > 0 then a.clockUpdates - 1 else 0)
    else
      a
  }

  lemma {:induction false} UpdatingIdempotent(a: Area, i: nat, j: nat)
    requires i > 0 && j > 0
    ensures BeginUpdating(BeginUpdating(a, i), j) == BeginUpdating(a, i)
    ensures EndUpdating(EndUpdating(a)) == EndUpdating(a)
    ensures Valid(a) ==> EndUpdating(BeginUpdating(a, i)).clockUpdates == 0
  {
  }

  /** Whether a request with these arguments is animated. */
  predicate Animates(a: Area, animate: bool, clock: Option<FrameClock>)
  {
    animate && a.duration != 0 && clock.Some?
  }

  /**
   * hildon_pannable_area_set_value_internal: resolve both axes, then either
   * start (or keep) an animation towards them, or stop any animation and set
   * both values at once.
   */
  function SetValueInternal(a: Area, hvalue: real, vvalue: real, animate: bool,
                            clock: Option<FrameClock>): (r: Area)
    requires ClockOk(clock)
    ensures r.h.lower == a.h.lower && r.h.upper == a.h.upper && r.h.pageSize == a.h.pageSize
    ensures r.v.lower == a.v.lower && r.v.upper == a.v.upper && r.v.pageSize == a.v.pageSize
    ensures r.duration == a.duration && r.realized == a.realized
    ensures !Animates(a, animate, clock) ==>
              && r.tickId == 0
              && r.h.value == ResolveTarget(a.h, hvalue)
              && r.v.value == ResolveTarget(a.v, vvalue)
    ensures Animates(a, animate, clock) ==>
              && r.tickId != 0
              && r.h == a.h && r.v == a.v
              && r.htarget == ResolveTarget(a.h, hvalue)
              && r.vtarget == ResolveTarget(a.v, vvalue)
    ensures (Animates(a, animate, clock) && a.tickId != 0 &&
             a.htarget == ResolveTarget(a.h, hvalue) && a.vtarget == ResolveTarget(a.v, vvalue))
              ==> r == a
    ensures (Animates(a, animate, clock) &&
             !(a.tickId != 0 && a.htarget == ResolveTarget(a.h, hvalue) &&
               a.vtarget == ResolveTarget(a.v, vvalue)))
              ==> && r.hsource == a.h.value && r.vsource == a.v.value
                  && r.startTime == clock.value.frameTime
                  && r.endTime == r.startTime + AnimationSpan(a.duration)
    ensures Valid(a) ==> Valid(r)
    ensures Settled(a) ==> Settled(r)
  {
    var vv := ResolveTarget(a.v, vvalue);
    var hv := ResolveTarget(a.h, hvalue);
    if Animates(a, animate, clock) then
      if a.tickId != 0 && a.htarget == hv && a.vtarget == vv then
        a
      else
        var start := clock.value.frameTime;
        BeginUpdating(
          a.(vsource := a.v.value, vtarget := vv, hsource := a.h.value, htarget := hv,
             startTime := start, endTime := start + AnimationSpan(a.duration)),
          clock.value.handlerId)
    else
      var stopped := EndUpdating(a);
      stopped.(v := a.v.WithValue(vv), h := a.h.WithValue(hv))
  }

  /** ease_out_cubic, from Robert Penner's easing equations. */
  function EaseOutCubic(t: real): real
  {
    var p := t - 1.0;
    p * p * p + 1.0
  }

  lemma CubeMonotone(p: real, q: real)
    requires p <= q
    ensures p * p * p <= q * q * q
    ensures p < q ==> p * p * p < q * q * q
  {
    var d := q - p;
    assert q * q * q - p * p * p == d * (q * q + q * p + p * p);
    var s := q + p / 2.0;
    assert q * q + q * p + p * p == s * s + 3.0 * (p * p) / 4.0;
    assert s * s >= 0.0;
    assert p * p >= 0.0;
    assert d * (q * q + q * p + p * p) >= 0.0;
    if p < q {
      if p == 0.0 {
        assert s == q && s * s > 0.0;
      } else {
        assert p * p > 0.0;
      }
      assert q * q + q * p + p * p > 0.0;
      assert d * (q * q + q * p + p * p) > 0.0;
    }
  }

  /** The easing curve starts at 0, ends at 1 and strictly increases. */
  lemma {:induction false} EaseOutCubicShape(s: real, t: real)
    requires s <= t
    ensures EaseOutCubic(0.0) == 0.0 && EaseOutCubic(1.0) == 1.0
    ensures EaseOutCubic(s) <= EaseOutCubic(t)
    ensures s < t ==> EaseOutCubic(s) < EaseOutCubic(t)
  {
    CubeMonotone(s - 1.0, t - 1.0);
  }

  /** On the unit interval the easing curve stays in [0, 1], short of 1 before the end. */
  lemma EaseOutCubicRange(t: real)
    requires 0.0 <= t <= 1.0
    ensures 0.0 <= EaseOutCubic(t) <= 1.0
    ensures t < 1.0 ==> EaseOutCubic(t) < 1.0
  {
    EaseOutCubicShape(0.0, t);
    EaseOutCubicShape(t, 1.0);
    var p := t - 1.0;
    if t < 1.0 {
      assert p < 0.0;
      assert p * p > 0.0;
      assert (p * p) * p < 0.0;
      assert EaseOutCubic(t) == p * p * p + 1.0;
    }
  }

  /** `p` lies between `a` and `b`, whichever is larger. */
  predicate Between(p: real, a: real, b: real)
  {
    Min(a, b) <= p <= Max(a, b)
  }

  lemma MulNonneg(a: real, b: real)
    requires a >= 0.0 && b >= 0.0
    ensures a * b >= 0.0
  {
  }

  lemma MulPos(a: real, b: real)
    requires a > 0.0 && b > 0.0
    ensures a * b > 0.0
  {
  }

  /** The point a fraction `e` of the way from `s` to `g`. */
  function Lerp(s: real, g: real, e: real): real
  {
    s + e * (g - s)
  }

  /** Moving a fraction `e` of the way up from `s` to `g` stays within [s, g]. */
  lemma LerpUp(s: real, g: real, e: real)
    requires 0.0 <= e <= 1.0 && s <= g
    ensures s <= Lerp(s, g, e) <= g
  {
    var d := g - s;
    MulNonneg(e, d);
    MulNonneg(1.0 - e, d);
    assert (1.0 - e) * d == d - e * d;
  }

  /** A point `e` of the way from `s` to `g` lies between them when 0 <= e <= 1. */
  lemma LerpBetween(s: real, g: real, e: real)
    requires 0.0 <= e <= 1.0
    ensures Between(Lerp(s, g, e), s, g)
  {
    if s <= g {
      LerpUp(s, g, e);
    } else {
      LerpUp(g, s, 1.0 - e);
      assert Lerp(s, g, e) == Lerp(g, s, 1.0 - e);
    }
  }

  /** The normalised elapsed time of a tick strictly before the end. */
  function Progress(a: Area, now: int): (t: real)
    requires a.startTime <= now < a.endTime
    ensures 0.0 <= t < 1.0
  {
    var num := (now - a.startTime) as real;
    var den := (a.endTime - a.startTime) as real;
    assert 0.0 <= num < den;
    num / den
  }

  /** The eased fraction of the way a tick at `now` has travelled. */
  function Eased(a: Area, now: int): (e: real)
    requires a.startTime <= now < a.endTime
    ensures 0.0 <= e < 1.0
  {
    var t := Progress(a, now);
    EaseOutCubicRange(t);
    EaseOutCubic(t)
  }

  /**
   * hildon_pannable_area_on_frame_clock_update. It only runs while the
   * handler is connected, and a frame clock never reports a time before the
   * one at which the animation started.
   */
  function Tick(a: Area, now: int): (r: Area)
    requires a.tickId != 0
    requires a.startTime <= now
    ensures r == a.(h := r.h, v := r.v, tickId := r.tickId, connected := r.connected, clockUpdates := r.clockUpdates)
    ensures r.h == a.h.WithValue(r.h.value) && r.v == a.v.WithValue(r.v.value)
    ensures r.hsource == a.hsource && r.htarget == a.htarget
    ensures r.vsource == a.vsource && r.vtarget == a.vtarget
    ensures r.duration == a.duration && r.startTime == a.startTime && r.endTime == a.endTime
    ensures now < a.endTime ==>
              && r.tickId == a.tickId
              && Between(r.h.value, a.hsource, a.htarget)
              && Between(r.v.value, a.vsource, a.vtarget)
    ensures now >= a.endTime ==>
              r.tickId == 0 && r.h.value == a.htarget && r.v.value == a.vtarget
    ensures Valid(a) ==> Valid(r)
    ensures Settled(a) ==> Settled(r)
  {
    if now < a.endTime then
      var e := Eased(a, now);
      var hv := Lerp(a.hsource, a.htarget, e);
      var vv := Lerp(a.vsource, a.vtarget, e);
      LerpBetween(a.hsource, a.htarget, e);
      LerpBetween(a.vsource, a.vtarget, e);
      a.(h := a.h.WithValue(hv), v := a.v.WithValue(vv))
    else
      EndUpdating(a.(h := a.h.WithValue(a.htarget), v := a.v.WithValue(a.vtarget)))
  }

  /** A later frame has travelled at least as far: elapsed time never decreases. */
  lemma ProgressMonotone(a: Area, n1: int, n2: int)
    requires a.startTime <= n1 <= n2 < a.endTime
    ensures Progress(a, n1) <= Progress(a, n2)
    ensures n1 < n2 ==> Progress(a, n1) < Progress(a, n2)
    ensures n1 == a.startTime ==> Progress(a, n1) == 0.0
  {
    var den := (a.endTime - a.startTime) as real;
    assert Progress(a, n2) - Progress(a, n1) == (n2 - n1) as real / den;
  }

  /** A larger fraction of the way from `s` to `g` lies between the smaller one and `g`. */
  lemma LerpMonotone(s: real, g: real, e1: real, e2: real)
    requires 0.0 <= e1 <= e2 <= 1.0
    ensures Between(Lerp(s, g, e2), Lerp(s, g, e1), g)
    ensures e1 < e2 && s != g ==> Lerp(s, g, e1) != Lerp(s, g, e2)
  {
    var l1 := Lerp(s, g, e1);
    var l2 := Lerp(s, g, e2);
    var de := e2 - e1;
    var rest := 1.0 - e2;
    var w := g - s;
    assert l2 - l1 == de * w;
    assert g - l2 == rest * w;
    if s <= g {
      MulNonneg(de, w);
      MulNonneg(rest, w);
      if e1 < e2 && s != g {
        MulPos(de, w);
      }
    } else {
      MulNonneg(de, -w);
      MulNonneg(rest, -w);
      assert de * -w == -(de * w) && rest * -w == -(rest * w);
      if e1 < e2 {
        MulPos(de, -w);
      }
    }
  }

  /**
   * The animation follows the ease-out towards its targets: a tick starts at
   * the source, and every later tick lies between an earlier tick's values
   * and the targets, so the view only ever moves towards them.
   */
  lemma {:induction false} TickProgress(a: Area, n1: int, n2: int)
    requires a.tickId != 0
    requires a.startTime <= n1 <= n2 < a.endTime
    ensures Between(Tick(a, n2).h.value, Tick(a, n1).h.value, a.htarget)
    ensures Between(Tick(a, n2).v.value, Tick(a, n1).v.value, a.vtarget)
    ensures n1 == a.startTime ==> Tick(a, n1).h.value == a.hsource && Tick(a, n1).v.value == a.vsource
    ensures n1 < n2 && a.hsource != a.htarget ==> Tick(a, n1).h.value != Tick(a, n2).h.value
    ensures n1 < n2 && a.vsource != a.vtarget ==> Tick(a, n1).v.value != Tick(a, n2).v.value
  {
    ProgressMonotone(a, n1, n2);
    EaseOutCubicShape(Progress(a, n1), Progress(a, n2));
    var e1 := Eased(a, n1);
    var e2 := Eased(a, n2);
    LerpMonotone(a.hsource, a.htarget, e1, e2);
    LerpMonotone(a.vsource, a.vtarget, e1, e2);
  }

  /** All frame times at or after `start`. */
  predicate From(start: int, times: seq<int>)
  {
    forall i :: 0 <= i < |times| ==> start <= times[i]
  }

  /** Delivers frame ticks in order; once the handler is gone no further tick reaches the area. */
  function Play(a: Area, times: seq<int>): (r: Area)
    requires From(a.startTime, times)
    ensures r.h.lower == a.h.lower && r.h.upper == a.h.upper && r.h.pageSize == a.h.pageSize
    ensures r.v.lower == a.v.lower && r.v.upper == a.v.upper && r.v.pageSize == a.v.pageSize
    ensures r.htarget == a.htarget && r.vtarget == a.vtarget
    ensures r.startTime == a.startTime && r.endTime == a.endTime
    ensures r.duration == a.duration && r.realized == a.realized
    ensures Valid(a) ==> Valid(r)
    ensures Settled(a) ==> Settled(r)
    decreases |times|
  {
    if |times| == 0 || a.tickId == 0 then a
    else Play(Tick(a, times[0]), times[1..])
  }

  /**
   * Once a frame at or after the end time has been delivered, the animation
   * has stopped exactly on its targets.
   */
  lemma {:induction false} PlayReachesTargets(a: Area, times: seq<int>, k: nat)
    requires From(a.startTime, times)
    requires a.tickId != 0
    requires k < |times| && times[k] >= a.endTime
    ensures Play(a, times).tickId == 0
    ensures Play(a, times).h.value == a.htarget && Play(a, times).v.value == a.vtarget
    decreases |times|
  {
    var b := Tick(a, times[0]);
    assert From(b.startTime, times[1..]) by {
      forall i | 0 <= i < |times[1..]|
        ensures b.startTime <= times[1..][i]
      {
        assert times[1..][i] == times[i + 1];
      }
    }
    if times[0] >= a.endTime {
      assert b.tickId == 0;
      assert Play(a, times) == Play(b, times[1..]);
    } else {
      assert k > 0;
      assert times[1..][k - 1] == times[k];
      PlayReachesTargets(b, times[1..], k - 1);
    }
  }

  /** glib's CLAMP: tests against `high` first, so it may return `high < low`. */
  function GClamp(x: real, low: real, high: real): (r: real)
    ensures low <= high ==> low <= r <= high
    ensures low <= x <= high ==> r == x
    ensures high < low ==> (r == high || r == low)
    ensures x > high ==> r == high
    ensures x <= high && x < low ==> r == low
  {
    if x > high then high else if x < low then low else x
  }

  /** The centred, clamped position scroll_to and jump_to compute for a coordinate. */
  function CentredTarget(ax: Axis, c: int): real
  {
    GClamp(c as real - ax.pageSize / 2.0, ax.lower, ax.upper - ax.pageSize)
  }

  /** Re-clamping a CLAMPed value gives the range point nearest the raw one. */
  lemma {:induction false} ResolveCentred(ax: Axis, c: int)
    requires CentredTarget(ax, c) != Ignore
    ensures var raw := c as real - ax.pageSize / 2.0;
            && ax.InRange(ResolveTarget(ax, CentredTarget(ax, c)))
            && (ax.InRange(raw) ==> ResolveTarget(ax, CentredTarget(ax, c)) == raw)
            && (raw < ax.lower ==> ResolveTarget(ax, CentredTarget(ax, c)) == ax.lower)
            && (raw > Max(ax.lower, ax.upper - ax.pageSize) ==>
                  ResolveTarget(ax, CentredTarget(ax, c)) == Max(ax.lower, ax.upper - ax.pageSize))
  {
    var raw := c as real - ax.pageSize / 2.0;
    var hi := ax.upper - ax.pageSize;
    var ct := CentredTarget(ax, c);
    if raw > hi {
      assert ct == hi;
    } else if raw < ax.lower {
      assert ct == ax.lower;
    } else {
      assert ct == raw;
    }
  }

  /**
   * The guards shared by scroll_to and jump_to: the widget must be realized
   * (a g_return_if_fail), some axis must scroll, and not both coordinates be -1.
   */
  predicate Moves(a: Area, x: int, y: int)
  {
    a.realized && (a.v.Scrollable() || a.h.Scrollable()) && !(x == -1 && y == -1)
  }

  /** hildon_pannable_area_scroll_to: animate towards the centred target. */
  function ScrollTo(a: Area, x: int, y: int, clock: Option<FrameClock>): (r: Area)
    requires ClockOk(clock)
    ensures r.realized == a.realized
    ensures !Moves(a, x, y) ==> r == a
    ensures Moves(a, x, y) && Animates(a, true, clock) ==>
              && r.h == a.h && r.v == a.v && r.tickId != 0
              && r.htarget == ResolveTarget(a.h, CentredTarget(a.h, x))
              && r.vtarget == ResolveTarget(a.v, CentredTarget(a.v, y))
    ensures Valid(a) ==> Valid(r)
    ensures Settled(a) ==> Settled(r)
  {
    if !Moves(a, x, y) then a
    else SetValueInternal(a, CentredTarget(a.h, x), CentredTarget(a.v, y), true, clock)
  }

  /** hildon_pannable_area_jump_to: the same target, set at once. */
  function JumpTo(a: Area, x: int, y: int, clock: Option<FrameClock>): (r: Area)
    requires ClockOk(clock)
    ensures r.realized == a.realized
    ensures !Moves(a, x, y) ==> r == a
    ensures Moves(a, x, y) ==>
              && r.tickId == 0
              && r.h == a.h.WithValue(ResolveTarget(a.h, CentredTarget(a.h, x)))
              && r.v == a.v.WithValue(ResolveTarget(a.v, CentredTarget(a.v, y)))
    ensures Valid(a) ==> Valid(r)
    ensures Settled(a) ==> Settled(r)
  {
    if !Moves(a, x, y) then a
    else SetValueInternal(a, CentredTarget(a.h, x), CentredTarget(a.v, y), false, clock)
  }

  /** Without a frame clock, or with a zero duration, scroll_to is jump_to. */
  lemma {:induction false} ScrollToWithoutClockJumps(a: Area, x: int, y: int, clock: Option<FrameClock>)
    requires ClockOk(clock)
    requires clock.None? || a.duration == 0
    ensures ScrollTo(a, x, y, clock) == JumpTo(a, x, y, clock)
  {
    if Moves(a, x, y) {
      var hv := CentredTarget(a.h, x);
      var vv := CentredTarget(a.v, y);
      assert !Animates(a, true, clock) && !Animates(a, false, clock);
      assert ScrollTo(a, x, y, clock) == SetValueInternal(a, hv, vv, true, clock);
      assert JumpTo(a, x, y, clock) == SetValueInternal(a, hv, vv, false, clock);
    }
  }

  /**
   * A scroll_to that runs to completion ends exactly where jump_to would have
   * put the view: once a frame at or after the end time has been delivered,
   * both axes hold jump_to's values and the tick handler is gone.
   */
  lemma {:induction false} ScrollToConvergesToJumpTo(a: Area, x: int, y: int,
                                                     clock: Option<FrameClock>, times: seq<int>, k: nat)
    requires ClockOk(clock)
    requires Moves(a, x, y)
    requires From(ScrollTo(a, x, y, clock).startTime, times)
    requires k < |times| && times[k] >= ScrollTo(a, x, y, clock).endTime
    ensures Play(ScrollTo(a, x, y, clock), times).tickId == 0
    ensures Play(ScrollTo(a, x, y, clock), times).h == JumpTo(a, x, y, clock).h
    ensures Play(ScrollTo(a, x, y, clock), times).v == JumpTo(a, x, y, clock).v
  {
    var s := ScrollTo(a, x, y, clock);
    if Animates(a, true, clock) {
      PlayReachesTargets(s, times, k);
    } else {
      ScrollToWithoutClockJumps(a, x, y, clock);
    }
  }

  /**
   * Neither a scroll_to nor the frames that follow it change whether a later
   * scroll_to or jump_to acts: the area stays realized and the adjustments
   * keep their bounds.
   */
  lemma {:induction false} ScrollKeepsGuard(a: Area, x: int, y: int, clock: Option<FrameClock>,
                                            times: seq<int>, x2: int, y2: int)
    requires ClockOk(clock)
    requires From(ScrollTo(a, x, y, clock).startTime, times)
    ensures Moves(Play(ScrollTo(a, x, y, clock), times), x2, y2) == Moves(a, x2, y2)
  {
  }

  /** scroll_to as documented: a coordinate of -1 leaves its axis alone. */
  function IntendedTarget(ax: Axis, c: int): real
  {
    if c == -1 then Ignore else CentredTarget(ax, c)
  }

  /** scroll_to with the -1 coordinate passed through as the sentinel. */
  function ScrollToIntended(a: Area, x: int, y: int, clock: Option<FrameClock>): (r: Area)
    requires ClockOk(clock)
    ensures r.realized == a.realized
    ensures !Moves(a, x, y) ==> r == a
    ensures Moves(a, x, y) && Animates(a, true, clock) ==>
              (x == -1 ==> r.htarget == a.h.value) && (y == -1 ==> r.vtarget == a.v.value)
    ensures Valid(a) ==> Valid(r)
    ensures Settled(a) ==> Settled(r)
  {
    if !Moves(a, x, y) then a
    else SetValueInternal(a, IntendedTarget(a.h, x), IntendedTarget(a.v, y), true, clock)
  }

  /** jump_to with the -1 coordinate passed through as the sentinel. */
  function JumpToIntended(a: Area, x: int, y: int, clock: Option<FrameClock>): (r: Area)
    requires ClockOk(clock)
    ensures r.realized == a.realized
    ensures !Moves(a, x, y) ==> r == a
    ensures Moves(a, x, y) ==> r.tickId == 0
    ensures Moves(a, x, y) && x == -1 ==> r.h == a.h
    ensures Moves(a, x, y) && y == -1 ==> r.v == a.v
    ensures Moves(a, x, y) && x != -1 ==> r.h.value == ResolveTarget(a.h, CentredTarget(a.h, x))
    ensures Moves(a, x, y) && y != -1 ==> r.v.value == ResolveTarget(a.v, CentredTarget(a.v, y))
    ensures Valid(a) ==> Valid(r)
    ensures Settled(a) ==> Settled(r)
  {
    if !Moves(a, x, y) then a
    else SetValueInternal(a, IntendedTarget(a.h, x), IntendedTarget(a.v, y), false, clock)
  }

  /** The corrected pair still agrees: a completed scroll ends where the jump lands. */
  lemma {:induction false} ScrollToIntendedConverges(a: Area, x: int, y: int,
                                                     clock: Option<FrameClock>, times: seq<int>, k: nat)
    requires ClockOk(clock)
    requires Moves(a, x, y)
    requires From(ScrollToIntended(a, x, y, clock).startTime, times)
    requires k < |times| && times[k] >= ScrollToIntended(a, x, y, clock).endTime
    ensures Play(ScrollToIntended(a, x, y, clock), times).h == JumpToIntended(a, x, y, clock).h
    ensures Play(ScrollToIntended(a, x, y, clock), times).v == JumpToIntended(a, x, y, clock).v
  {
    var s := ScrollToIntended(a, x, y, clock);
    var hv := IntendedTarget(a.h, x);
    var vv := IntendedTarget(a.v, y);
    if Animates(a, true, clock) {
      PlayReachesTargets(s, times, k);
    } else {
      assert s == SetValueInternal(a, hv, vv, true, clock);
      assert JumpToIntended(a, x, y, clock) == SetValueInternal(a, hv, vv, false, clock);
    }
  }

  /**
   * As written, jump_to(-1, y) does not leave the horizontal axis alone: the
   * -1 is centred and clamped before set_value_internal looks for it, so the
   * view jumps to the start of the content.
   */
  lemma JumpToMovesIgnoredAxis()
    ensures var a := NewArea(Axis(0.0, 1000.0, 400.0, 300.0), Axis(0.0, 1000.0, 400.0, 0.0)).(realized := true);
            && JumpTo(a, -1, 500, None).h.value == 0.0
            && a.h.value == 300.0
            && JumpToIntended(a, -1, 500, None).h.value == 300.0
  {
  }

  /**
   * A centred, clamped coordinate that happens to be -1.0 is taken for the
   * sentinel: jump_to(1, y) with lower -10 and a page of 4 leaves the
   * horizontal axis where it was instead of moving it to -1.
   */
  lemma CentredSentinel()
    ensures var a := NewArea(Axis(-10.0, 100.0, 4.0, 50.0), Axis(0.0, 1000.0, 400.0, 0.0)).(realized := true);
            && CentredTarget(a.h, 1) == Ignore
            && JumpTo(a, 1, 500, None).h == a.h
  {
  }

  /**
   * jump_to centres the requested point: on a 1000-long axis with a 400 page,
   * x = 800 puts the page at 600..1000. An area that is not yet realized
   * ignores the call.
   */
  lemma CentringExample()
    ensures var a := NewArea(Axis(0.0, 1000.0, 400.0, 0.0), Axis(0.0, 1000.0, 400.0, 0.0));
            && JumpTo(a.(realized := true), 800, -1, None).h.value == 600.0
            && JumpTo(a, 800, -1, None) == a
  {
  }
}

=== FILE: pannable_properties.dfy ===
/**
 * The two pannable-area properties whose setters do more than store the
 * value: the scrollbar fade delay, kept in units of the fade timeout, and
 * the movement mode, which decides the scroll-bar policies.
 */
module PannableProperties {
  import opened GLib

  /** SCROLL_FADE_TIMEOUT: the fade delay is stored in steps of 100 ms. */
  const ScrollFadeTimeout: nat := 100

  /** set_property(scrollbar_fade_delay): milliseconds are stored as whole fade steps. */
  function StoreFadeDelay(ms: nat): (stored: nat)
    requires IsUint(ms)
    ensures IsUint(stored)
    ensures stored * ScrollFadeTimeout <= ms < (stored + 1) * ScrollFadeTimeout
  {
    ms / ScrollFadeTimeout
  }

  /** get_property(scrollbar_fade_delay): the stored steps times 100, as an unsigned product. */
  function ReadFadeDelay(stored: nat): (ms: nat)
    requires IsUint(stored)
    ensures IsUint(ms)
    ensures stored * ScrollFadeTimeout < Uint32Modulus ==> ms == stored * ScrollFadeTimeout
  {
    (stored * ScrollFadeTimeout) % Uint32Modulus
  }

  /**
   * Reading the fade delay back returns the value written rounded down to a
   * multiple of 100 ms; writing that back changes nothing.
   */
  lemma {:induction false} FadeDelayRoundTrip(ms: nat)
    requires IsUint(ms)
    ensures ReadFadeDelay(StoreFadeDelay(ms)) == ms - ms % ScrollFadeTimeout
    ensures ReadFadeDelay(StoreFadeDelay(ms)) % ScrollFadeTimeout == 0
    ensures ms - ScrollFadeTimeout < ReadFadeDelay(StoreFadeDelay(ms)) <= ms
    ensures StoreFadeDelay(ReadFadeDelay(StoreFadeDelay(ms))) == StoreFadeDelay(ms)
  {
    var s := StoreFadeDelay(ms);
    assert s * ScrollFadeTimeout <= ms;
    assert ReadFadeDelay(s) == s * ScrollFadeTimeout;
    assert ms == s * ScrollFadeTimeout + ms % ScrollFadeTimeout;
    assert (s * ScrollFadeTimeout) / ScrollFadeTimeout == s;
  }

  /** The movement directions a HildonMovementMode flag value can name. */
  datatype Direction = Horizontal | Vertical

  /** GtkPolicyType. */
  datatype Policy = Always | Automatic | Never | External

  datatype ScrollbarPolicies = ScrollbarPolicies(vertical: Policy, horizontal: Policy)

  /**
   * set_property(mov_mode): exactly vertical hides the horizontal bar,
   * exactly horizontal hides the vertical bar, anything else shows both.
   */
  function PoliciesFor(mode: set<Direction>): (p: ScrollbarPolicies)
    ensures p.horizontal == Never <==> mode == {Vertical}
    ensures p.vertical == Never <==> mode == {Horizontal}
    ensures p.vertical in {Automatic, Never} && p.horizontal in {Automatic, Never}
    ensures !(p.vertical == Never && p.horizontal == Never)
  {
    if mode == {Vertical} then ScrollbarPolicies(Automatic, Never)
    else if mode == {Horizontal} then ScrollbarPolicies(Never, Automatic)
    else ScrollbarPolicies(Automatic, Automatic)
  }
}

=== FILE: theme_size.dfy ===
/**
 * hildon_gtk_widget_set_theme_size: turn HildonSizeType flags into a size
 * request and a widget name the theme can match.
 *
 * The flags are modelled as a set; their bit values live in hildon-gtk.h,
 * which is not part of this model.
 */
module ThemeSize {
  import opened Wrappers

  datatype SizeFlag = HalfscreenWidth | FullscreenWidth | FingerHeight | ThumbHeight

  const FingerHeightPixels: int := 70
  const ThumbHeightPixels: int := 105

  /** gtk_widget_set_size_request's "no preference". */
  const Unset: int := -1

  /**
   * What the call leaves behind: the requested width and height, and the
   * new widget name, None when the name is left alone.
   */
  datatype ThemedSize = ThemedSize(width: int, height: int, name: Option<string>)

  /** C integer division, which truncates toward zero. */
  function CDiv(a: int, b: int): (q: int)
    requires b > 0
    ensures a >= 0 ==> 0 <= a - b * q < b
    ensures a < 0 ==> -b < a - b * q <= 0
  {
    if a >= 0 then a / b else -((-a) / b)
  }

  /** The height flags: finger wins over thumb. */
  function HeightFor(size: set<SizeFlag>): (h: (int, Option<string>))
  {
    if FingerHeight in size then (FingerHeightPixels, Some("-finger"))
    else if ThumbHeight in size then (ThumbHeightPixels, Some("-thumb"))
    else (Unset, None)
  }

  /** The width flags: half-screen wins over full-screen. */
  function WidthFor(size: set<SizeFlag>, screenWidth: int): (w: int)
  {
    if HalfscreenWidth in size then CDiv(screenWidth, 2)
    else if FullscreenWidth in size then screenWidth
    else Unset
  }

  /**
   * hildon_gtk_widget_set_theme_size on a widget whose type is called
   * `typeName`, on a screen `screenWidth` pixels wide.
   */
  function SetThemeSize(typeName: string, size: set<SizeFlag>, screenWidth: int): (r: ThemedSize)
    ensures FingerHeight in size ==> r.height == FingerHeightPixels && r.name == Some(typeName + "-finger")
    ensures FingerHeight !in size && ThumbHeight in size ==>
              r.height == ThumbHeightPixels && r.name == Some(typeName + "-thumb")
    ensures FingerHeight !in size && ThumbHeight !in size ==> r.height == Unset && r.name.None?
    ensures HalfscreenWidth in size ==> r.width == CDiv(screenWidth, 2)
    ensures HalfscreenWidth !in size && FullscreenWidth in size ==> r.width == screenWidth
    ensures HalfscreenWidth !in size && FullscreenWidth !in size ==> r.width == Unset
  {
    var (height, suffix) := HeightFor(size);
    var name := if suffix.Some? then Some(typeName + suffix.value) else None;
    ThemedSize(WidthFor(size, screenWidth), height, name)
  }

  /**
   * The widget is renamed exactly when a height is requested, and the new
   * name starts with the type name.
   */
  lemma RenamedIffHeightSet(typeName: string, size: set<SizeFlag>, screenWidth: int)
    ensures var r := SetThemeSize(typeName, size, screenWidth);
            && (r.name.Some? <==> r.height != Unset)
            && (r.name.Some? ==> |r.name.value| > |typeName| && r.name.value[..|typeName|] == typeName)
  {
    var r := SetThemeSize(typeName, size, screenWidth);
    if r.name.Some? {
      assert r.name.value[..|typeName|] == typeName;
    }
  }

  /**
   * The width depends only on the width flags, and the height and the name
   * only on the height flags.
   */
  lemma WidthAndHeightIndependent(typeName: string, a: set<SizeFlag>, b: set<SizeFlag>, screenWidth: int)
    ensures (a * {HalfscreenWidth, FullscreenWidth} == b * {HalfscreenWidth, FullscreenWidth}) ==>
              SetThemeSize(typeName, a, screenWidth).width == SetThemeSize(typeName, b, screenWidth).width
    ensures (a * {FingerHeight, ThumbHeight} == b * {FingerHeight, ThumbHeight}) ==>
              && SetThemeSize(typeName, a, screenWidth).height == SetThemeSize(typeName, b, screenWidth).height
              && SetThemeSize(typeName, a, screenWidth).name == SetThemeSize(typeName, b, screenWidth).name
  {
    if a * {HalfscreenWidth, FullscreenWidth} == b * {HalfscreenWidth, FullscreenWidth} {
      assert HalfscreenWidth in a <==> HalfscreenWidth in a * {HalfscreenWidth, FullscreenWidth};
      assert FullscreenWidth in a <==> FullscreenWidth in a * {HalfscreenWidth, FullscreenWidth};
      assert HalfscreenWidth in b <==> HalfscreenWidth in b * {HalfscreenWidth, FullscreenWidth};
      assert FullscreenWidth in b <==> FullscreenWidth in b * {HalfscreenWidth, FullscreenWidth};
    }
    if a * {FingerHeight, ThumbHeight} == b * {FingerHeight, ThumbHeight} {
      assert FingerHeight in a <==> FingerHeight in a * {FingerHeight, ThumbHeight};
      assert ThumbHeight in a <==> ThumbHeight in a * {FingerHeight, ThumbHeight};
      assert FingerHeight in b <==> FingerHeight in b * {FingerHeight, ThumbHeight};
      assert ThumbHeight in b <==> ThumbHeight in b * {FingerHeight, ThumbHeight};
    }
  }
}

=== FILE: window_hit_test.dfy ===
/**
 * hildon_pannable_area_get_topmost: find the window under a point by
 * descending a window tree. Every window knows its position in its
 * parent, its size, whether it is visible, its event mask and its
 * children in stacking-list order. A hit names the window found by the
 * path of child indices leading to it, together with the point in that
 * window's own coordinates.
 */
module WindowHitTest {
  import opened Wrappers

  datatype Window = Window(x: int, y: int, width: int, height: int,
                           visible: bool, events: bv32, children: seq<Window>)

  datatype Hit = Hit(path: seq<nat>, tx: int, ty: int)

  /** The point, in the window's own coordinates, lies inside it. */
  predicate Inside(w: Window, x: int, y: int)
  {
    0 <= x < w.width && 0 <= y < w.height
  }

  /** The point, in the parent's coordinates, lies inside child `c`. */
  predicate Contains(c: Window, x: int, y: int)
  {
    c.x <= x < c.x + c.width && c.y <= y < c.y + c.height
  }

  /** Some of the window's events are among those asked for. */
  predicate Listens(c: Window, mask: bv32)
  {
    c.events & mask != 0
  }

  /**
   * What child `i` of `w` offers for the point (x, y) given in `w`'s
   * coordinates: nothing unless it is visible and contains the point; a
   * child with children offers the hit inside it, or itself when there is
   * none; a childless child offers itself only when it listens to `mask`.
   */
  function Candidate(w: Window, i: nat, x: int, y: int, mask: bv32): Option<Hit>
    requires i < |w.children|
    decreases w, 0
  {
    var c := w.children[i];
    if Contains(c, x, y) && c.visible then
      if |c.children| > 0 then
        match Topmost(c, x - c.x, y - c.y, mask)
        case Some(h) => Some(Hit([i] + h.path, h.tx, h.ty))
        case None => Some(Hit([i], x - c.x, y - c.y))
      else if Listens(c, mask) then Some(Hit([i], x - c.x, y - c.y))
      else None
    else None
  }

  /** The candidates of all children, in list order. */
  function Candidates(w: Window, x: int, y: int, mask: bv32): (cs: seq<Option<Hit>>)
    ensures |cs| == |w.children|
    decreases w, 1
  {
    seq(|w.children|, j requires 0 <= j < |w.children| => Candidate(w, j, x, y, mask))
  }

  /**
   * The loop over the children: every candidate replaces the selection
   * made so far, so the last one in list order wins.
   */
  function Select<T>(cs: seq<Option<T>>, selected: Option<T>): Option<T>
  {
    if |cs| == 0 then selected
    else Select(cs[1..], if cs[0].Some? then cs[0] else selected)
  }

  /** The topmost window of the tree rooted at `w` under (x, y), in `w`'s coordinates. */
  function Topmost(w: Window, x: int, y: int, mask: bv32): (r: Option<Hit>)
    ensures !Inside(w, x, y) ==> r.None?
    ensures Inside(w, x, y) && |w.children| == 0 ==> r == Some(Hit([], x, y))
    decreases w, 2
  {
    if !Inside(w, x, y) then None
    else if |w.children| == 0 then Some(Hit([], x, y))
    else Select(Candidates(w, x, y, mask), None)
  }

  /** With no candidate the selection survives. */
  lemma {:induction false} SelectKeeps<T>(cs: seq<Option<T>>, selected: Option<T>)
    requires forall j :: 0 <= j < |cs| ==> cs[j].None?
    ensures Select(cs, selected) == selected
    decreases |cs|
  {
    if |cs| > 0 {
      assert forall k :: 0 <= k < |cs[1..]| ==> cs[1..][k] == cs[k + 1];
      SelectKeeps(cs[1..], selected);
    }
  }

  /** The last candidate offered is the one selected. */
  lemma {:induction false} SelectLastWins<T>(cs: seq<Option<T>>, selected: Option<T>, j: nat)
    requires j < |cs| && cs[j].Some?
    requires forall k :: j < k < |cs| ==> cs[k].None?
    ensures Select(cs, selected) == cs[j]
    decreases j
  {
    assert forall k :: 0 <= k < |cs[1..]| ==> cs[1..][k] == cs[k + 1];
    if j == 0 {
      SelectKeeps(cs[1..], cs[0]);
    } else {
      SelectLastWins(cs[1..], if cs[0].Some? then cs[0] else selected, j - 1);
    }
  }

  /**
   * Inside a window with children: there is no hit exactly when no child
   * offers a candidate, and otherwise the hit is the candidate of the last
   * child in list order that offers one.
   */
  lemma {:induction false} TopmostLastWins(w: Window, x: int, y: int, mask: bv32)
    requires Inside(w, x, y) && |w.children| > 0
    ensures (forall j :: 0 <= j < |w.children| ==> Candidate(w, j, x, y, mask).None?) ==>
              Topmost(w, x, y, mask).None?
    ensures Topmost(w, x, y, mask).None? ==>
              forall j :: 0 <= j < |w.children| ==> Candidate(w, j, x, y, mask).None?
    ensures Topmost(w, x, y, mask).Some? ==>
              exists j :: 0 <= j < |w.children| && Topmost(w, x, y, mask) == Candidate(w, j, x, y, mask) &&
                          forall k :: j < k < |w.children| ==> Candidate(w, k, x, y, mask).None?
  {
    var n := |w.children|;
    var cs := Candidates(w, x, y, mask);
    assert forall k :: 0 <= k < n ==> cs[k] == Candidate(w, k, x, y, mask);
    var j := n;
    // Walk down from the end to the last child with a candidate.
    while j > 0 && cs[j - 1].None?
      invariant 0 <= j <= n
      invariant forall k :: j <= k < n ==> cs[k].None?
    {
      j := j - 1;
    }
    assert Topmost(w, x, y, mask) == Select(cs, None);
    if j > 0 {
      SelectLastWins(cs, None, j - 1);
      assert Topmost(w, x, y, mask) == cs[j - 1];
      assert Candidate(w, j - 1, x, y, mask).Some?;
      assert forall k :: j - 1 < k < n ==> Candidate(w, k, x, y, mask).None?;
      assert Topmost(w, x, y, mask).Some?;
    } else {
      SelectKeeps(cs, None);
      assert Topmost(w, x, y, mask).None?;
    }
  }

  /** A path of child indices that exists in the tree. */
  predicate ValidPath(w: Window, path: seq<nat>)
    decreases |path|
  {
    |path| == 0 || (path[0] < |w.children| && ValidPath(w.children[path[0]], path[1..]))
  }

  /** The window a valid path leads to. */
  function At(w: Window, path: seq<nat>): Window
    requires ValidPath(w, path)
    decreases |path|
  {
    if |path| == 0 then w else At(w.children[path[0]], path[1..])
  }

  /** Every window the path enters (the root excluded) is visible. */
  predicate VisibleAlong(w: Window, path: seq<nat>)
    requires ValidPath(w, path)
    decreases |path|
  {
    |path| == 0 || (w.children[path[0]].visible && VisibleAlong(w.children[path[0]], path[1..]))
  }

  /** How far the window a path leads to is shifted, horizontally and vertically, from the root. */
  function OffsetX(w: Window, path: seq<nat>): int
    requires ValidPath(w, path)
    decreases |path|
  {
    if |path| == 0 then 0 else w.children[path[0]].x + OffsetX(w.children[path[0]], path[1..])
  }

  function OffsetY(w: Window, path: seq<nat>): int
    requires ValidPath(w, path)
    decreases |path|
  {
    if |path| == 0 then 0 else w.children[path[0]].y + OffsetY(w.children[path[0]], path[1..])
  }

  /**
   * A hit is sound for the tree rooted at `w` and the point (x, y): its
   * path leads to a real window of the tree through visible windows only,
   * the point is translated by the positions of all windows on the way and
   * lies inside the window hit, and a childless window other than the root
   * is only hit when it listens to `mask`.
   */
  predicate Sound(w: Window, x: int, y: int, mask: bv32, h: Hit)
  {
    && ValidPath(w, h.path)
    && VisibleAlong(w, h.path)
    && h.tx == x - OffsetX(w, h.path)
    && h.ty == y - OffsetY(w, h.path)
    && Inside(At(w, h.path), h.tx, h.ty)
    && (|h.path| > 0 && |At(w, h.path).children| == 0 ==> Listens(At(w, h.path), mask))
  }

  /** Every hit get_topmost returns is sound. */
  lemma {:induction false} TopmostSound(w: Window, x: int, y: int, mask: bv32)
    ensures Topmost(w, x, y, mask).Some? ==> Sound(w, x, y, mask, Topmost(w, x, y, mask).value)
    decreases w, 1
  {
    if Inside(w, x, y) && |w.children| > 0 && Topmost(w, x, y, mask).Some? {
      TopmostLastWins(w, x, y, mask);
      var j :| 0 <= j < |w.children| && Topmost(w, x, y, mask) == Candidate(w, j, x, y, mask);
      CandidateSound(w, j, x, y, mask);
    }
  }

  /** Every candidate a child offers is a sound hit for its parent. */
  lemma {:induction false} CandidateSound(w: Window, i: nat, x: int, y: int, mask: bv32)
    requires i < |w.children|
    ensures Candidate(w, i, x, y, mask).Some? ==> Sound(w, x, y, mask, Candidate(w, i, x, y, mask).value)
    decreases w, 0
  {
    var c := w.children[i];
    if Candidate(w, i, x, y, mask).Some? {
      var h := Candidate(w, i, x, y, mask).value;
      if |c.children| > 0 && Topmost(c, x - c.x, y - c.y, mask).Some? {
        var g := Topmost(c, x - c.x, y - c.y, mask).value;
        TopmostSound(c, x - c.x, y - c.y, mask);
        assert h.path == [i] + g.path;
        assert h.path[0] == i && h.path[1..] == g.path;
      } else {
        assert h.path == [i];
        assert h.path[0] == i && h.path[1..] == [];
      }
    }
  }
}

=== FILE: wrappers.dfy ===
/** Optional values: the model's stand-in for a C pointer that may be NULL. */
module Wrappers {

  datatype Option<+T> = None | Some(value: T)
}
